=== FILE: README.md ===
# schwab-api-js: session, trade flow and logging, modelled in Dafny

This project models the core of `schwab-api-js`, a Node.js client for a brokerage web site. It covers three files.

- **`lib/session.js`.** `SchwabSession` holds one mutable credential, `this.cookies`, which is absent until a browser login stores one. `authenticate` decides whether a login is needed by comparing the current time with the credential's expiry. It runs the primary login and, when the site asks for a code, one SMS step. It then re-checks the credential, failing with "not logged in" or "session expired". Last, it either adds the credential's `Cookie` header to the request or hands the request to a caller-supplied `apply`. The credential's expiry is a left fold over the cookie list. Its header value is `name=value;` per cookie, joined by single spaces.
- **`lib/schwab.js`.** The trade flow has several parts:
  - the required-property check, which never fails because the error it builds is not thrown;
  - the trade-type membership test;
  - the verification and confirmation request bodies, built as defaults that `requestProperties` overrides;
  - the success test on a reply;
  - `trade`, which confirms only after a successful verification that is not a dry run.
- **`lib/logging.js`.** This file holds the module-level log transport and its arity check, `log` and the four level helpers, `formatMessage`, and `withCleanErrors`. `withCleanErrors` removes the browser driver's fixed-shape "logs" block from an error's message and stack.

The model's layout:

- **Modules.** `Wrappers` holds `Option`, `Result` and `Outcome`. `Text` holds the string operations the code relies on. `Js` holds the JavaScript values these files observe, with truthiness, property access and `String(v)`. Then come `Logging`, `Session` and `Schwab`, one per source file.
- **Mutable state.** What the source updates in place is a class:
  - the log transport is `Logging.LogModule`;
  - an error object is `Logging.JsError`;
  - the session is `Session.Session`, whose `cookies: Option<Credential>` field is the only mutable state;
  - a request with mutable headers is `Session.Request`;
  - the object `trade` fills in is `Schwab.TradeResponse`.
- **Method specifications.** Each method is proved against a pure function:
  - `Session.Session.Authenticate` against `Session.AuthenticateSpec`;
  - `Session.Session.Login` and `Session.Session.SmsLogin` against `Session.PrimaryStep` and `Session.SmsStep`;
  - `Schwab.Trade` against `Schwab.TradeSpec`.

  The lemmas state what the source promises about those functions.

Inputs that the source obtains from the outside world are parameters:

- **Time.** `now` is the epoch-seconds value `authenticate` reads from the clock. A timestamp string stands for `new Date().toISOString()`.
- **`Session.Driver`.** It records how the browser part of the primary login ends, the prompt's timestamp, the code the user types, and how the SMS step ends.
- **POST replies.** `Schwab.PostReply` is the parsed reply of each POST.

## Model

| member | source | states |
|---|---|---|
| Logging.ValidateLogTransport | lib/logging.js:3-7 | Passes exactly for a function that declares at least two parameters; otherwise fails with the fixed "Invalid log transport function..." message. |
| Logging.LogModule.constructor | lib/logging.js:1 | The module starts with no transport installed. |
| Logging.LogModule.SetLogTransport | lib/logging.js:9-12 | Returns the validation outcome. Installs the candidate only when it passes, and otherwise leaves the installed transport as it was. Keeps the invariant that whatever is installed passed validation. |
| Logging.LogModule.Log | lib/logging.js:33-35 | Calls the target with exactly `(level, message)`. The target is the installed transport when there is one, and the default console printer when there is none. |
| Logging.LogModule.Debug | lib/logging.js:28 | Calls the transport with level `"debug"` and the message unchanged. That is the default console when no transport is installed, and the installed transport otherwise. |
| Logging.LogModule.Info | lib/logging.js:29 | Calls the transport with level `"info"` and the message unchanged. That is the default console when no transport is installed, and the installed transport otherwise. |
| Logging.LogModule.Warning | lib/logging.js:30 | Calls the transport with level `"warning"` and the message unchanged. That is the default console when no transport is installed, and the installed transport otherwise. |
| Logging.LogModule.Error | lib/logging.js:31 | Calls the transport with level `"error"` and the message unchanged. That is the default console when no transport is installed, and the installed transport otherwise. |
| Logging.ConsoleLine | lib/logging.js:33-35 | Only the default target prints. What it prints parses back into the timestamp, level and message it was called with. |
| Logging.FormatMessage | lib/logging.js:14-16 | The line starts with the timestamp and ends with the message. Its length is the parts plus the five separator characters. |
| Logging.FormatParseRoundTrip | lib/logging.js:14-16 | For a level without a colon, the formatted line splits back into exactly timestamp, level and message. |
| Logging.FormatHead | lib/logging.js:15 | The formatted line is the timestamp, two spaces, then the level, a colon, two spaces and the message. |
| Logging.StripLogBlocks | lib/logging.js:22 | The cleaned text is never longer than the input. |
| Logging.LeadingBlock | lib/logging.js:22 | A match starts with `\n` and spans at least 123 characters within the text. |
| Logging.LeadingBlockSound | lib/logging.js:22 | Whatever is matched at the start of the text is exactly one logs block: `\n`, 27 `=`, a whitespace character, `logs`, a whitespace character, 27 `=`, `\n`, one line without a line terminator, `\n` and 60 `=`. |
| Logging.NoBlockUnchanged | lib/logging.js:22 | Text in which no block starts at any position is returned unchanged. |
| Logging.WithoutNewlineUnchanged | lib/logging.js:22 | Text without `\n` is returned unchanged. |
| Logging.NewlineFreePrefix | lib/logging.js:22 | A prefix without `\n` passes through the global replace untouched. |
| Logging.LeadingBlockMatches | lib/logging.js:22 | A block made of `\n`, 27 `=`, one whitespace character, `logs`, one whitespace character, 27 `=`, `\n`, one line, `\n` and 60 `=` is matched exactly, whatever follows it. |
| Logging.BlockRemoved | lib/logging.js:22-23 | A block is removed when no block starts anywhere in the text before it, which may span several lines. The text before it is kept, and the scan continues on the text after it. |
| Logging.BlockFreePrefix | lib/logging.js:22 | A prefix in which no block starts passes through the global replace untouched, however many lines it has. |
| Logging.DriverMessageCleaned | lib/logging.js:22-23 | A one-line message followed by a logs block comes back as the message alone. |
| Logging.MultiLineMessageCleaned | lib/logging.js:22-23 | Example: the two-line message `"a\nb"` followed by a logs block comes back as `"a\nb"`. |
| Logging.WithCleanErrors | lib/logging.js:18-26 | A returned value passes through unchanged. A thrown error is rethrown as the same object, with the logs blocks removed from its message and its stack. |
| Session.Configure | lib/session.js:18-31 | Fails with the missing-options error exactly when no options are given. The browser defaults to Firefox. `headless` is true unless it is exactly `false`. The credentials are kept as given. |
| Session.SessionError.Message | lib/session.js:20 | Exactly the errors the source raises itself carry a text, and a rethrown driver error keeps its (cleaned) message. Engine `TypeError`s carry no modelled text. The texts themselves (lib/session.js:20, 74, 77) are fixed by the body, not by the contract; `Session.ExpiredMessageDetermines` states what the expired-session text determines. |
| Session.ExpiredMessageDetermines | lib/session.js:76-77 | The "session expired at E, current time: N: please log-in again." text determines both E and N, negative values included. |
| Session.Session.Create | lib/session.js:18-31 | The constructor throws without options. Otherwise it yields a new session with the configured options and no credential. |
| Session.Session.constructor | lib/session.js:23 | The credential starts absent. |
| Session.CredentialFrom | lib/session.js:169-176 | An empty cookie list throws, and only then. Otherwise the credential keeps every cookie's name and value in order, and its expiry is the fold of the cookies' expiries, one of those expiries. |
| Session.CredentialExpiry | lib/session.js:169-173 | The stored credential expires at the earliest cookie expiry when all expiries are positive, and at the last cookie's expiry when that one is not positive. |
| Session.Keep | lib/session.js:172 | One reducer step keeps one of its two arguments and never exceeds the next expiry. It keeps the accumulator only when that is positive. |
| Session.FoldExpiry | lib/session.js:171-173 | The `reduce` without an initial value ends on the first accumulator or on one of the remaining expiries. |
| Session.StoredExpiry | lib/session.js:171-173 | For a non-empty list, the stored expiry is one of the cookies' expiries. |
| Session.StoredExpiryIsAnExpiry | lib/session.js:171-173 | The folded expiry is always some cookie's expiry. |
| Session.PositiveExpiriesGiveMinimum | lib/session.js:171-173 | When every expiry is positive, the folded expiry is their minimum. |
| Session.TrailingNonPositiveWins | lib/session.js:171-173 | A non-positive expiry at the end of the list always becomes the stored expiry. |
| Session.NonPositiveResetsTheFold | lib/session.js:171-173 | Examples: `[100, -1, 200]` folds to 200 and `[100, -1]` folds to -1. The fold is not "the smallest positive expiry". |
| Session.Render | lib/session.js:175 | One cookie renders as its name, `=`, its value and a closing `;`, and nothing else. |
| Session.Renders | lib/session.js:175 | The `map` renders every cookie, one string per cookie and in order. |
| Session.Header | lib/session.js:175 | `getHeaderValue()` is empty for no cookies and is the single rendering for one cookie. `Session.HeaderRoundTrip` gives the general case. |
| Session.HeaderExample | lib/session.js:175 | Cookies `a=1` and `b=2` render, in order, as `"a=1; b=2;"`. |
| Session.ParseCookiesRoundTrip | lib/session.js:175 | For a non-empty list of cookies whose names have no `=` and whose values have no `;`, the rendered header parses back to the same list. |
| Session.HeaderRoundTrip | lib/session.js:175 | The header value determines the cookie list, the empty list included. |
| Session.DecorateHeaders | lib/session.js:80-86 | A missing header map is created. `Cookie` becomes the header value when it is absent or empty, and otherwise the old value, `;` and the header value. Every other header is kept, and no header is added except `Cookie`. |
| Session.Decorate | lib/session.js:80-91 | Without `apply`, the cookie header is injected into the request, and it fails when there is no request. With a function `apply`, that same function is called. A non-function `apply` fails. These two failures are the only ones, each in exactly its case. |
| Session.PrimaryStep | lib/session.js:247-305 | `login` clears the credential. It holds a credential exactly when it returns true, and it returns false exactly on a code challenge. Reaching the account summary with cookies stores exactly the credential built from them and returns true. With no cookies it fails on the empty reduce and holds nothing. A thrown driver error is rethrown with its logs block removed. |
| Session.SmsStep | lib/session.js:187-245 | Only a verified SMS login stores a credential, and it stores exactly the credential built from the reported cookies. With no cookies it fails on the empty reduce and keeps the old credential. A timeout returns false. On a timeout or an error the credential is left as it was, and a thrown error is rethrown with its logs block removed. |
| Session.CheckCredential | lib/session.js:72-78 | The re-check succeeds exactly when a credential is held and `now` is before its expiry. It fails with "not logged in" when none is held, and with "session expired" (carrying expiry and time) when the credential is out of date. |
| Session.LoginEnabled | lib/session.js:34-40 | Login is on with no options, and only an explicit `loginIfRequired: false` turns it off. |
| Session.RememberDevice | lib/session.js:35-41 | `rememberDevice` is on with no options, and only an explicit `rememberDevice: false` turns it off. |
| Session.LoginRequired | lib/session.js:50-57 | No login is required exactly when a credential is held and `now` is before its expiry. |
| Session.LoginAttemptedIffRequired | lib/session.js:50-61 | With login enabled, a login is attempted exactly when the credential is absent or `now >= expires`, and it starts with the primary login. |
| Session.NoLoginWhenDisabled | lib/session.js:39-78 | With `loginIfRequired: false`, nothing is attempted and the credential is kept. An absent credential fails with "not logged in", and an expired one with "session expired". |
| Session.LiveCredentialSkipsLogin | lib/session.js:50-57 | A credential still live at `now` is used as it is, with no login step. |
| Session.ChallengeGetsOneCodeAttempt | lib/session.js:59-68 | After a code challenge there is exactly one prompt (formatted at level `info` with text `SMS Code: `) and one SMS login with the typed code and the remember-device flag. Nothing else follows. |
| Session.DirectLoginPromptsNothing | lib/session.js:59-68 | A primary login that needs no code is the only step. |
| Session.UnconfirmedCodeIsNotLoggedIn | lib/session.js:62-74 | When the code is not confirmed in time, the credential stays cleared and the call fails with "not logged in". |
| Session.SuccessHoldsLiveCredential | lib/session.js:72-91 | A call that succeeds holds a credential live at `now`. A default decoration carries that credential's header value, and otherwise the caller's `apply` is the one called. |
| Session.TwoFactorScenario | lib/session.js:33-91 | End to end: a fresh session whose login needs an SMS code logs in once with the code. It stores expiry T+50 for cookies expiring at T+100 and T+50, and asks for the default decoration with header value `"a=1; b=2;"`. By `Session.DecorateHeaders`, that value becomes the request's `Cookie` header when the request had no non-empty one. |
| Session.Session.SaveCookies | lib/session.js:167-177 | Stores the credential built from the cookie list. When the fold throws on an empty list, the field is left unchanged and the error is returned. |
| Session.Session.Login | lib/session.js:247-305 | Leaves the field and the result given by `PrimaryStep`. |
| Session.Session.SmsLogin | lib/session.js:187-245 | Leaves the field and the result given by `SmsStep` applied to the previous field. |
| Session.Session.LoginSteps | lib/session.js:59-68 | The field, the steps taken and the error are those of `LoginSequence`: the primary login, then the prompt and one SMS login when it returned false. |
| Session.Session.Authenticate | lib/session.js:33-92 | The credential, the login steps and the outcome are those of `AuthenticateSpec`. A default decoration rewrites exactly the request's headers, as `DecorateHeaders` says. Otherwise, and on every failure, the request is left untouched. |
| Schwab.TradeType.Id | lib/schwab.js:4-13 | `Buy` has id 1 and `Sell` has id 2. |
| Schwab.TradeType.Name | lib/schwab.js:4-13 | `Buy` renders as `"Buy"` and `Sell` as `"Sell"`. |
| Schwab.ValidateProperties | lib/schwab.js:22-34 | Always resolves with the props object itself. The only effect of a missing property is an error message that is built and discarded, one per missing property in order. |
| Schwab.MissingMessagesExact | lib/schwab.js:26-30 | An error message is built for a property exactly when it is required and missing. |
| Schwab.MissingMessages | lib/schwab.js:26-30 | At most one message per required property. `Schwab.MissingMessagesExact` states which ones are built. |
| Schwab.IsTradeType | lib/schwab.js:70 | A value passes the `Object.values(TradeType).includes` check (also at line 135) exactly when it is one of the two trade-type objects. |
| Schwab.TradeError.Message | lib/schwab.js:72 | Only the invalid-trade-type error carries a text of its own. The text ("Invalid trade type '...', please use either TradeType.Buy or TradeType.Sell") is fixed by the body, not by the contract. |
| Schwab.Verify | lib/schwab.js:58-121 | A trade type that is not one of the two objects is rejected before any POST. Otherwise exactly one POST goes to the verification URL with the verification body, and the reply decides the outcome. |
| Schwab.VerifyRequest | lib/schwab.js:87-103 | The body has the eleven default keys plus the caller's keys. Every caller key wins. Otherwise `CustomerId` is the account id, `BuySellCode` the trade type's id, `Quantity` the quantity and `SecurityId` the ticker; `IsMinQty` and `IsReinvestDividends` are false, `TimeInForce` is `"1"`, `OrderType` is 1, and `CblMethod`, `CblDefault` and `CostBasis` are `"FIFO"`. |
| Schwab.VerifyTradePart | lib/schwab.js:90-95 | The verification defaults taken from the trade type and the props. |
| Schwab.VerifyFixedPart | lib/schwab.js:89-99 | The verification defaults that are the same for every trade. |
| Schwab.Confirm | lib/schwab.js:123-199 | The trade type is checked first, before any POST. A verify result that cannot be read throws before the POST. Otherwise exactly one POST goes to the confirmation URL. |
| Schwab.ConfirmRequest | lib/schwab.js:149-178 | A nullish verify result throws on `Id`. A non-string `IssueShortDescription` throws on `replace`. Otherwise: the body has the sixteen default keys plus the caller's keys, and caller keys win. Each default not overridden is stated: `BuyAction` is true exactly for `Buy`; `ActionType` and `ActionTypeText` are the type's name; `AccountId` and `Quantity` come from the props; `CostBasis` and `CostBasisMethod` are `"FIFO"` and `IsMarketHours` is true; `OrderId`, `Principal`, `ItemIssueId`, `NetAmount` and `Symbol` are the verify result's `Id`, `QuoteAmount`, `IssueId`, `NetAmount` and `IssueSymbol`; `ShortDescription` has its first space replaced by `+`; `OrderType` is `"Market"` and `Timing` is `"Day Only"`. |
| Schwab.ConfirmTradePart | lib/schwab.js:161-173 | The defaults taken from the trade type and the props, with the fixed `CostBasis`, `CostBasisMethod` and `IsMarketHours`. |
| Schwab.ConfirmOrderPart | lib/schwab.js:168-176 | The defaults taken from the verify result, with the fixed `OrderType` and `Timing`. |
| Text.ReplaceFirst | lib/schwab.js:174 | `replace` with a string pattern changes only the first occurrence, and the length is kept. |
| Text.ReplaceFirstAfter | lib/schwab.js:174 | Everything before the first occurrence and everything after it are kept, later occurrences included. |
| Schwab.ShortDescriptionFirstSpaceOnly | lib/schwab.js:174 | Example: `"A B C"` becomes `"A+B C"`. |
| Schwab.OrderOutcome | lib/schwab.js:105-119 | `successful()` is true exactly when the status is 200 and `ReturnCode` is 0. `result()` is the reply body. A rejected POST rejects the call. With status 200, a nullish body throws on reading `ReturnCode`; no other reply throws. |
| Schwab.OrderResult.Messages | lib/schwab.js:116 | `messages()` is the `Message` of each entry of `Messages`, one per entry and in order. When `Messages` is an array, the result is exactly that map over its entries. When reading `Messages` throws, or the value is not an array, `messages()` throws. |
| Schwab.MessagesOf | lib/schwab.js:116 | The map succeeds exactly when no entry is nullish, and then keeps length and order. |
| Schwab.AsWrittenNeverConfirms | lib/schwab.js:224 | As written, a verified trade that is not a dry run always fails with a `TypeError` on `IssueShortDescription.replace`, and no confirmation POST is made. |
| Schwab.ConfirmOfResultObjectThrows | lib/schwab.js:174 | `confirm` given the accessor object throws on `replace` before any POST. |
| Schwab.AsWrittenExample | lib/schwab.js:216-229 | A concrete Buy whose verification succeeds fails as written, but is confirmed by the corrected flow. |
| Schwab.ConfirmOnlyAfterSuccessfulVerification | lib/schwab.js:208-229 | `confirm` is called exactly when verification succeeded and `dryRun` is not `true`. The POSTs are the verification's, then `Confirm`'s own POSTs when it is called. `Confirm` itself posts only when the verify result has a string `IssueShortDescription` (lib/schwab.js:174), so a called `confirm` can still make no POST. |
| Schwab.DryRunNeverConfirms | lib/schwab.js:208-221 | With `dryRun === true`, there is at most the verification POST and the confirmation stays empty. |
| Schwab.TradeReportsVerification | lib/schwab.js:212-227 | A settled trade always reports the verification result. The confirmation is present exactly when confirm ran. |
| Schwab.TradePosts | lib/schwab.js:208-229 | Whatever is handed to `confirm`, the POSTs are the verification's, then the confirmation's exactly when verification succeeded and it is not a dry run. |
| Schwab.TwoPostsMeanConfirmed | lib/schwab.js:208-229 | A trade that made two POSTs verified successfully, was not a dry run, and then called `confirm`. |
| Schwab.ConfirmCarriesOrderId | lib/schwab.js:164-177 | A confirmation POST carries the verify result's `Id` as its `OrderId`. |
| Schwab.ConfirmationUsesVerifiedOrder | lib/schwab.js:164-177 | When both POSTs are made, the confirmation's `OrderId` is the `Id` of the verification response. |
| Schwab.DryRun | lib/schwab.js:208 | A trade is a dry run exactly when `dryRun` is present and is the boolean `true`. |
| Schwab.ResultObject | lib/schwab.js:114-118 | The object `verify` resolves with has exactly the keys `successful`, `messages` and `result`, each a function. Reading `IssueShortDescription` or `Id` from it gives `undefined`. |
| Schwab.TradeWith | lib/schwab.js:201-232 | Whatever is handed to `confirm`, a settled trade reports the verification `verify` produced. A dry run makes at most one POST and reports no confirmation. |
| Schwab.TradeAsWritten | lib/schwab.js:201-232 | As written, a settled trade never reports a confirmation. |
| Schwab.Trade | lib/schwab.js:201-232 | The corrected flow, which hands `verificationResult.result()` to `confirm` instead of the accessor object passed at lib/schwab.js:224. The POSTs and the outcome are those of `TradeSpec`. On success, the new response object holds the verification result and, when confirm ran, the confirmation result. |
| Text.NatToStringRoundTrip | lib/session.js:77 | The decimal rendering of a non-negative number reads back as the same number. |
| Text.IntToStringRoundTrip | lib/session.js:77 | The rendering of any integer, minus sign included, reads back as the same integer; so an expiry of -1 in the error text reads back as -1. |
| Text.IntToStringInjective | lib/session.js:77 | Different integers render differently. |

## Left out

- The browser automation in `login` and `smsLogin` (navigation, selectors, form filling, the 2FA option fallbacks) is not modelled. Its result is the `Session.PrimaryOutcome` / `Session.SmsOutcome` inputs, with the cookie list the context reports.
- The readline prompt is not modelled. The typed code is an input; the prompt's text is modelled.
- The clock is not modelled. `now` (already floored to seconds) and the ISO timestamp are inputs. The 10-second race in `smsLogin` is the `AccountListTimeout` outcome.
- Closing the browser, context and page, and the `browser`/`context`/`page` fields, are not modelled. They are resources the model does not have.
- The HTTPS `get`/`post` round trip, chunk accumulation, `JSON.parse`, `Content-Length` and `getAccountInfo` are not modelled. They are I/O, and each POST is represented by its reply.
- Schwab.OrderOutcome: takes the status code as a parameter. In the source, `post` resolves a promise with one value, so the second parameter of the reply handlers (lib/schwab.js:105, 181) is always `undefined`. As written, `successful()` is therefore always false and `trade` never reaches `confirm`.
- The stray `resolve(result)` after the confirmation result (lib/schwab.js:196) is not modelled. `result` is undeclared, so the callback throws after the promise has already settled, and nothing observable follows.
- Concurrency is not modelled. The source has no guard against overlapping `authenticate` calls, so no at-most-one-login rule exists to model.
- Log output from the session and trade methods is not modelled. Only the logging module itself is.
- Numbers are integers. Floating point is not modelled.
- JSON key order of the request bodies is not modelled. Bodies are maps.
- The split between a synchronous throw and a rejected promise is not modelled. `verify`/`confirm` either reject or throw (lib/schwab.js:149), and both are one `Failure`.
- The `_validateProperties` calls inside `verify` and `confirm` (lib/schwab.js:61, 126, 143) are not modelled. `Schwab.Trade` does call it. For an object value, `Schwab.ValidateProperties` shows that the call changes nothing.
- `Object.keys` on an `undefined` or `null` argument is not modelled: props at lib/schwab.js:61, 126 and 203, and `verifyResult` at lib/schwab.js:143. It throws inside the promise executor, so the promise that nobody awaits rejects. That unhandled rejection ends the Node.js process under the default settings of Node.js 15 and later. The model has no process. It represents a nullish `verifyResult` only by the `TypeError` on `Id` in `Schwab.ConfirmRequest`, and models props as objects.
- Session.Session.Authenticate: `apply(request)` is returned symbolically as `Applied(fn, request)`. What `apply` computes is the caller's code.
- Logging.WithCleanErrors: an error value without string `message`/`stack` fields is not modelled. Reading them would throw. Only `Error` objects are thrown by the modelled code.
- The `toString` of a plain object passed as a trade type is not modelled. It renders as `[object Object]`.
- The wording of engine `TypeError`s is not modelled. They are named by the expression that failed.
- `lib/urls.js` and `index.js` are not part of this model. The URLs are the `Schwab.Url` constructors, and `index.js` only re-exports.
- Request headers are modelled as a map from strings to strings. A caller's header with a non-string value, such as a numeric `Cookie` that the template at lib/session.js:85 would turn into text, is not modelled.

The expiry reducer at lib/session.js:171-173 reads like "the smallest positive expiry", but it is not. It keeps the accumulator only while that is positive and strictly smaller than the next expiry. A non-positive expiry therefore discards the positives before it, and one at the end wins. The model follows the code (`Session.NonPositiveResetsTheFold`, `Session.TrailingNonPositiveWins`).

## Findings

| source | as written | input that shows it | evidently intended | confidence | as-written member | corrected member |
|---|---|---|---|---|---|---|
| lib/schwab.js:224 | `trade` passes `confirm` the object `verify` resolved with. Its only keys are the accessors `successful`, `messages` and `result`, so `verifyResult.IssueShortDescription.replace` throws a `TypeError` before the confirmation POST. | A Buy of 1 share of `AAPL`, not a dry run. The verification reply is `{ReturnCode: 0, Id: 7, IssueShortDescription: "APPLE INC COM"}` with status 200. | Pass the verification response `verificationResult.result()`, whose `Id`, `IssueShortDescription` and related fields the confirmation body reads. | medium, not executed | Schwab.AsWrittenNeverConfirms | Schwab.Trade |

=== FILE: js.dfy ===
/** The slice of JavaScript's value model that the three source files
    observe: the primitive values, arrays and plain objects that `JSON.parse`
    produces, and functions with their declared parameter count
    (`Function.prototype.length`). Numbers are modelled as integers. */
module Js {
  import opened Wrappers
  import opened Text

  datatype JsValue =
    | Undefined
    | Null
    | Bool(b: bool)
    | Num(n: int)
    | Str(s: string)
    | Arr(items: seq<JsValue>)
    | Obj(fields: map<string, JsValue>)
    | Func(source: string, length: nat)

  /** JavaScript truthiness: `undefined`, `null`, `false`, `0` and `""` are falsy. */
  predicate Truthy(v: JsValue) {
    match v
    case Undefined => false
    case Null => false
    case Bool(b) => b
    case Num(n) => n != 0
    case Str(s) => s != ""
    case _ => true
  }

  /** `m[key]` on a plain object: a missing key reads as `undefined`. */
  function Get(m: map<string, JsValue>, key: string): (r: JsValue)
    ensures key !in m ==> r == Undefined
    ensures key in m ==> r == m[key]
  {
    if key in m then m[key] else Undefined
  }

  /** `v.key`: reading a property of `undefined` or `null` throws a
      `TypeError` (reported here as the property name). Of the other
      non-object values, none has a property with the names this model
      reads (`ReturnCode`, `Messages`, `Message`, `Id`, ...), so they read
      as `undefined`. */
  function Member(v: JsValue, key: string): (r: Result<JsValue, string>)
    ensures r.Failure? <==> v.Undefined? || v.Null?
    ensures r.Failure? ==> r.error == key
    ensures v.Obj? ==> r == Success(Get(v.fields, key))
  {
    match v
    case Undefined => Failure(key)
    case Null => Failure(key)
    case Obj(fields) => Success(Get(fields, key))
    case _ => Success(Undefined)
  }

  /** `String(v)`, as a template literal renders a value: arrays join their
      elements with `,` (with `undefined` and `null` elements rendered
      empty), plain objects render as `[object Object]`, functions as their
      source text. */
  function ToDisplayString(v: JsValue): string
    decreases v
  {
    match v
    case Undefined => "undefined"
    case Null => "null"
    case Bool(b) => if b then "true" else "false"
    case Num(n) => IntToString(n)
    case Str(s) => s
    case Arr(items) =>
      Join(seq(|items|, i requires 0 <= i < |items| =>
                 if items[i].Undefined? || items[i].Null? then "" else ToDisplayString(items[i])), ",")
    case Obj(_) => "[object Object]"
    case Func(source, _) => source
  }
}

=== FILE: logging.dfy ===
/** lib/logging.js: the module-level log transport, the level helpers that
    forward to it, the default console line format, and `withCleanErrors`,
    which strips the browser driver's "logs" block from an error's text. */
module Logging {
  import opened Wrappers
  import opened Js
  import opened Text

  // ---------------------------------------------------------------------
  // Transport installation and forwarding
  // ---------------------------------------------------------------------

  const InvalidTransportMessage: string :=
    "Invalid log transport function. Should be a function containing at least two parameters."

  /** `_validateLogTransport`: only a function that declares at least two
      parameters is accepted; anything else throws. */
  function ValidateLogTransport(l: JsValue): (r: Outcome<string>)
    ensures r.Pass? <==> l.Func? && l.length >= 2
    ensures r.Fail? ==> r.error == InvalidTransportMessage
  {
    match l
    case Func(_, length) => if length < 2 then Fail(InvalidTransportMessage) else Pass
    case _ => Fail(InvalidTransportMessage)
  }

  /** The function `log` ends up calling: the installed transport, or the
      default one that prints `formatMessage(level, message)` to the console. */
  datatype Target = Installed(fn: JsValue) | DefaultConsole

  /** One call of a transport, with its two arguments. */
  datatype TransportCall = TransportCall(target: Target, level: string, message: string)

  /** The module's state: the `transport` variable, `undefined` until
      `setLogTransport` succeeds. */
  class LogModule {
    var transport: Option<JsValue>

    /** Whatever is installed passed validation. */
    ghost predicate Valid()
      reads this
    {
      transport.Some? ==> ValidateLogTransport(transport.value).Pass?
    }

    constructor()
      ensures Valid() && transport == None
    {
      transport := None;
    }

    /** `setLogTransport`: validate first, install only on success; a
        rejected candidate leaves the installed transport as it was. */
    method SetLogTransport(l: JsValue) returns (r: Outcome<string>)
      requires Valid()
      modifies this
      ensures Valid()
      ensures r == ValidateLogTransport(l)
      ensures transport == (if r.Pass? then Some(l) else old(transport))
    {
      r := ValidateLogTransport(l);
      if r.Pass? {
        transport := Some(l);
      }
    }

    /** `log(level, message)`: calls `transport || default` with exactly
        `(level, message)`. */
    function Log(level: string, message: string): (c: TransportCall)
      reads this
      ensures c.level == level && c.message == message
      ensures transport.None? ==> c.target == DefaultConsole
      ensures Valid() && transport.Some? ==> c.target == Installed(transport.value)
    {
      var target := if transport.Some? && Truthy(transport.value) then Installed(transport.value) else DefaultConsole;
      TransportCall(target, level, message)
    }

    /** `debug(message)`: `log` at level `"debug"`. */
    function Debug(message: string): (c: TransportCall)
      reads this
      ensures c.level == "debug" && c.message == message
      ensures transport.None? ==> c.target == DefaultConsole
      ensures Valid() && transport.Some? ==> c.target == Installed(transport.value)
    {
      Log("debug", message)
    }

    /** `info(message)`: `log` at level `"info"`. */
    function Info(message: string): (c: TransportCall)
      reads this
      ensures c.level == "info" && c.message == message
      ensures transport.None? ==> c.target == DefaultConsole
      ensures Valid() && transport.Some? ==> c.target == Installed(transport.value)
    {
      Log("info", message)
    }

    /** `warning(message)`: `log` at level `"warning"`. */
    function Warning(message: string): (c: TransportCall)
      reads this
      ensures c.level == "warning" && c.message == message
      ensures transport.None? ==> c.target == DefaultConsole
      ensures Valid() && transport.Some? ==> c.target == Installed(transport.value)
    {
      Log("warning", message)
    }

    /** `error(message)`: `log` at level `"error"`. */
    function Error(message: string): (c: TransportCall)
      reads this
      ensures c.level == "error" && c.message == message
      ensures transport.None? ==> c.target == DefaultConsole
      ensures Valid() && transport.Some? ==> c.target == Installed(transport.value)
    {
      Log("error", message)
    }
  }

  /** What a call prints: the default transport prints one formatted line
      stamped with `timestamp` (`new Date().toISOString()` in the source);
      an installed transport's output is not part of this model. */
  function ConsoleLine(c: TransportCall, timestamp: string): (line: Option<string>)
    ensures line.Some? <==> c.target.DefaultConsole?
    ensures line.Some? && ':' !in c.level ==>
              ParseMessage(line.value, |timestamp|) == Some((timestamp, c.level, c.message))
  {
    match c.target
    case DefaultConsole =>
      var printed := FormatMessage(timestamp, c.level, c.message);
      assert ':' !in c.level ==> ParseMessage(printed, |timestamp|) == Some((timestamp, c.level, c.message)) by {
        if ':' !in c.level { FormatParseRoundTrip(timestamp, c.level, c.message); }
      }
      Some(printed)
    case Installed(_) => None
  }

  // ---------------------------------------------------------------------
  // formatMessage
  // ---------------------------------------------------------------------

  /** `formatMessage(level, message)`: timestamp, two spaces, level, a
      colon, two spaces, message. */
  function FormatMessage(timestamp: string, level: string, message: string): (line: string)
    ensures |line| == |timestamp| + |level| + |message| + 5
    ensures line[..|timestamp|] == timestamp
    ensures line[|line| - |message|..] == message
  {
    timestamp + "  " + level + ":  " + message
  }

  /** Splits a formatted line back into timestamp, level and message, given
      the timestamp's width (24 characters for an ISO-8601 UTC stamp). */
  function ParseMessage(line: string, timestampWidth: nat): Option<(string, string, string)>
  {
    if |line| < timestampWidth + 2 || line[timestampWidth..timestampWidth + 2] != "  " then None
    else
      var rest := line[timestampWidth + 2..];
      match IndexOf(rest, ':')
      case None => None
      case Some(i) =>
        if i + 3 <= |rest| && rest[i..i + 3] == ":  " then
          Some((line[..timestampWidth], rest[..i], rest[i + 3..]))
        else None
  }

  /** Where the timestamp and the two leading spaces sit in a formatted line. */
  lemma FormatHead(timestamp: string, level: string, message: string)
    ensures var line := FormatMessage(timestamp, level, message);
            var w := |timestamp|;
            line[..w] == timestamp && line[w..w + 2] == "  "
            && line[w + 2..] == level + [':'] + ("  " + message)
  {
    var rest := level + [':'] + ("  " + message);
    assert ":  " == [':'] + "  ";
    assert FormatMessage(timestamp, level, message) == timestamp + ("  " + rest);
  }

  /** The level, the separator and the message after the leading spaces. */
  lemma LevelSplit(level: string, message: string)
    requires ':' !in level
    ensures var rest := level + [':'] + ("  " + message);
            var i := |level|;
            IndexOf(rest, ':') == Some(i) && rest[..i] == level
            && rest[i..i + 3] == ":  " && rest[i + 3..] == message
  {
    var rest := level + [':'] + ("  " + message);
    IndexOfAfter(level, ':', "  " + message);
    assert rest[|level| + 1..] == "  " + message;
  }

  /** `ParseMessage` in terms of where the separators sit. */
  lemma ParseAt(line: string, w: nat, rest: string, i: nat)
    requires w + 2 <= |line| && line[w..w + 2] == "  " && line[w + 2..] == rest
    requires IndexOf(rest, ':') == Some(i) && i + 3 <= |rest| && rest[i..i + 3] == ":  "
    ensures ParseMessage(line, w) == Some((line[..w], rest[..i], rest[i + 3..]))
  {
  }

  /** A line formatted from a level without a colon parses back to its parts. */
  lemma FormatParseRoundTrip(timestamp: string, level: string, message: string)
    requires ':' !in level
    ensures ParseMessage(FormatMessage(timestamp, level, message), |timestamp|) == Some((timestamp, level, message))
  {
    FormatHead(timestamp, level, message);
    LevelSplit(level, message);
    ParseAt(FormatMessage(timestamp, level, message), |timestamp|, level + [':'] + ("  " + message), |level|);
  }

  // ---------------------------------------------------------------------
  // The "logs" block that withCleanErrors removes
  // ---------------------------------------------------------------------

  /** A character matched by `\s`. */
  predicate IsWhitespace(c: char) {
    var n := c as int;
    n == 0x09 || n == 0x0A || n == 0x0B || n == 0x0C || n == 0x0D || n == 0x20 || n == 0xA0
    || n == 0x1680 || (0x2000 <= n <= 0x200A) || n == 0x2028 || n == 0x2029 || n == 0x202F
    || n == 0x205F || n == 0x3000 || n == 0xFEFF
  }

  /** A character that `.` does not match. */
  predicate IsLineTerminator(c: char) {
    var n := c as int;
    n == 0x0A || n == 0x0D || n == 0x2028 || n == 0x2029
  }

  function Rule(n: nat): (r: string)
    ensures |r| == n && forall k :: 0 <= k < n ==> r[k] == '='
  {
    seq(n, _ => '=')
  }

  /** Index of the first line terminator in `t`. */
  function FirstLineTerminator(t: string): (r: Option<nat>)
    ensures r.Some? ==> r.value < |t| && IsLineTerminator(t[r.value])
                        && forall k :: 0 <= k < r.value ==> !IsLineTerminator(t[k])
    ensures r.None? ==> forall k :: 0 <= k < |t| ==> !IsLineTerminator(t[k])
  {
    if t == [] then None
    else if IsLineTerminator(t[0]) then Some(0)
    else
      match FirstLineTerminator(t[1..])
      case None => None
      case Some(m) => Some(m + 1)
  }

  /** Length of the match of `/\n={27}\slogs\s={27}\n.*\n={60}/` that starts
      at the first character of `t`, if any. `.*` cannot cross a line
      terminator, so the line ends at the first one, which must be `\n`. */
  function LeadingBlock(t: string): (r: Option<nat>)
    ensures r.Some? ==> 62 + 61 <= r.value <= |t| && t[0] == '\n'
  {
    if 62 <= |t| && t[0] == '\n' && t[1..28] == Rule(27) && IsWhitespace(t[28])
       && t[29..33] == "logs" && IsWhitespace(t[33]) && t[34..61] == Rule(27) && t[61] == '\n'
    then
      match FirstLineTerminator(t[62..])
      case None => None
      case Some(m) =>
        var j := 62 + m;
        if t[j] == '\n' && j + 61 <= |t| && t[j + 1..j + 61] == Rule(60) then Some(j + 61) else None
    else None
  }

  /** `text.replace(/\n={27}\slogs\s={27}\n.*\n={60}/gm, '')`: scanning left
      to right, each match is dropped and the scan resumes after it. */
  function StripLogBlocks(t: string): (r: string)
    ensures |r| <= |t|
    decreases |t|
  {
    if t == [] then []
    else
      match LeadingBlock(t)
      case Some(n) => StripLogBlocks(t[n..])
      case None => [t[0]] + StripLogBlocks(t[1..])
  }

  /** Text in which no block starts anywhere comes back unchanged. */
  lemma {:induction false} NoBlockUnchanged(t: string)
    requires forall k :: 0 <= k < |t| ==> LeadingBlock(t[k..]).None?
    ensures StripLogBlocks(t) == t
    decreases |t|
  {
    if t != [] {
      assert LeadingBlock(t[0..]).None?;
      assert t[0..] == t;
      forall k | 0 <= k < |t[1..]| ensures LeadingBlock(t[1..][k..]).None? {
        assert t[1..][k..] == t[k + 1..];
      }
      NoBlockUnchanged(t[1..]);
    }
  }

  /** Every block starts with `\n`, so text without one is unchanged. */
  lemma WithoutNewlineUnchanged(t: string)
    requires '\n' !in t
    ensures StripLogBlocks(t) == t
  {
    forall k | 0 <= k < |t| ensures LeadingBlock(t[k..]).None? {
      assert t[k..][0] == t[k];
    }
    NoBlockUnchanged(t);
  }

  /** A prefix without `\n` is copied through untouched. */
  lemma {:induction false} NewlineFreePrefix(pre: string, rest: string)
    requires '\n' !in pre
    ensures StripLogBlocks(pre + rest) == pre + StripLogBlocks(rest)
    decreases |pre|
  {
    if pre == [] {
      assert pre + rest == rest;
    } else {
      var t := pre + rest;
      assert t[0] == pre[0];
      assert t[1..] == pre[1..] + rest;
      NewlineFreePrefix(pre[1..], rest);
    }
  }

  /** A prefix in which no block starts is copied through untouched, even
      when it spans several lines. */
  lemma {:induction false} BlockFreePrefix(pre: string, rest: string)
    requires forall k :: 0 <= k < |pre| ==> LeadingBlock((pre + rest)[k..]).None?
    ensures StripLogBlocks(pre + rest) == pre + StripLogBlocks(rest)
    decreases |pre|
  {
    if pre == [] {
      assert pre + rest == rest;
    } else {
      var t := pre + rest;
      assert t[0..] == t;
      assert t[1..] == pre[1..] + rest;
      forall k | 0 <= k < |pre[1..]| ensures LeadingBlock((pre[1..] + rest)[k..]).None? {
        assert (pre[1..] + rest)[k..] == t[k + 1..];
      }
      BlockFreePrefix(pre[1..], rest);
    }
  }

  /** The block as the browser driver appends it to an error: a newline,
      27 `=`, a whitespace character, `logs`, a whitespace character, 27 `=`,
      a newline, one line of log text, a newline and 60 `=`. */
  function LogBlock(w1: char, w2: char, line: string): string {
    "\n" + Rule(27) + [w1] + "logs" + [w2] + Rule(27) + "\n" + line + "\n" + Rule(60)
  }

  lemma FirstTerminatorIsAfterLine(line: string, rest: string)
    requires forall k :: 0 <= k < |line| ==> !IsLineTerminator(line[k])
    requires rest != [] && IsLineTerminator(rest[0])
    ensures FirstLineTerminator(line + rest) == Some(|line|)
  {
    var t := line + rest;
    assert t[|line|] == rest[0];
    assert forall k :: 0 <= k < |line| ==> t[k] == line[k];
  }

  /** A well-formed block at the start of the text is matched exactly. */
  lemma LeadingBlockMatches(w1: char, w2: char, line: string, post: string)
    requires IsWhitespace(w1) && IsWhitespace(w2)
    requires forall k :: 0 <= k < |line| ==> !IsLineTerminator(line[k])
    ensures LeadingBlock(LogBlock(w1, w2, line) + post) == Some(|LogBlock(w1, w2, line)|)
  {
    var b := LogBlock(w1, w2, line);
    var t := b + post;
    var head := "\n" + Rule(27) + [w1] + "logs" + [w2] + Rule(27) + "\n";
    assert |head| == 62;
    assert b == head + (line + "\n" + Rule(60));
    assert t == head + (line + ("\n" + Rule(60) + post));
    assert t[0] == '\n';
    assert t[1..28] == Rule(27);
    assert t[28] == w1;
    assert t[29..33] == "logs";
    assert t[33] == w2;
    assert t[34..61] == Rule(27);
    assert t[61] == '\n';
    assert t[62..] == line + ("\n" + Rule(60) + post);
    FirstTerminatorIsAfterLine(line, "\n" + Rule(60) + post);
    var j := 62 + |line|;
    assert t[j] == '\n';
    assert t[j + 1..j + 61] == Rule(60);
  }

  /** The fixed first 62 characters of a block: newline, rule, `logs`
      between two whitespace characters, rule, newline. */
  function BlockHead(w1: char, w2: char): string {
    "\n" + Rule(27) + [w1] + "logs" + [w2] + Rule(27) + "\n"
  }

  lemma HeadShape(t: string)
    requires 62 <= |t| && t[0] == '\n' && t[1..28] == Rule(27) && t[29..33] == "logs"
             && t[34..61] == Rule(27) && t[61] == '\n'
    ensures t[..62] == BlockHead(t[28], t[33])
  {
    assert t[..62] == t[..1] + t[1..28] + t[28..29] + t[29..33] + t[33..34] + t[34..61] + t[61..62];
  }

  /** Conversely, whatever `LeadingBlock` matches is a well-formed block:
      the matcher never takes more or less than one logs block. */
  lemma LeadingBlockSound(t: string)
    requires LeadingBlock(t).Some?
    ensures exists w1, w2, line ::
              IsWhitespace(w1) && IsWhitespace(w2)
              && (forall k :: 0 <= k < |line| ==> !IsLineTerminator(line[k]))
              && t[..LeadingBlock(t).value] == LogBlock(w1, w2, line)
  {
    var m := FirstLineTerminator(t[62..]).value;
    var j := 62 + m;
    var line := t[62..j];
    assert forall k :: 0 <= k < |line| ==> line[k] == t[62..][k];
    assert LeadingBlock(t).value == j + 61;
    HeadShape(t);
    assert t[..j + 61] == t[..62] + (t[62..j] + t[j..j + 1] + t[j + 1..j + 61]);
    assert t[j..j + 1] == "\n";
    assert LogBlock(t[28], t[33], line) == BlockHead(t[28], t[33]) + (line + "\n" + Rule(60));
  }

  /** A block that follows text in which no block starts is removed, and
      the scan goes on after it. */
  lemma BlockRemoved(pre: string, w1: char, w2: char, line: string, post: string)
    requires forall k :: 0 <= k < |pre| ==> LeadingBlock((pre + LogBlock(w1, w2, line) + post)[k..]).None?
    requires IsWhitespace(w1) && IsWhitespace(w2)
    requires forall k :: 0 <= k < |line| ==> !IsLineTerminator(line[k])
    ensures StripLogBlocks(pre + LogBlock(w1, w2, line) + post) == pre + StripLogBlocks(post)
  {
    var b := LogBlock(w1, w2, line);
    assert pre + b + post == pre + (b + post);
    BlockFreePrefix(pre, b + post);
    LeadingBlockMatches(w1, w2, line, post);
    assert (b + post)[|b|..] == post;
  }

  /** The usual shape of a driver error: a one-line message followed by its
      logs block loses the block and keeps the message. */
  lemma DriverMessageCleaned(message: string, line: string)
    requires '\n' !in message
    requires forall k :: 0 <= k < |line| ==> !IsLineTerminator(line[k])
    ensures StripLogBlocks(message + LogBlock(' ', ' ', line)) == message
  {
    var t := message + LogBlock(' ', ' ', line) + [];
    forall k | 0 <= k < |message| ensures LeadingBlock(t[k..]).None? {
      assert t[k..][0] == message[k];
    }
    BlockRemoved(message, ' ', ' ', line, []);
    assert message + LogBlock(' ', ' ', line) + [] == message + LogBlock(' ', ' ', line);
  }

  /** A message of two lines loses the block that follows it: the `\n`
      inside the message starts no block, because `b` is not `=`. */
  lemma MultiLineMessageCleaned()
    ensures StripLogBlocks("a\nb" + LogBlock(' ', ' ', "x")) == "a\nb"
  {
    var pre := "a\nb";
    var t := pre + LogBlock(' ', ' ', "x") + [];
    forall k | 0 <= k < |pre| ensures LeadingBlock(t[k..]).None? {
      assert t[k..][0] == pre[k];
      if k == 1 {
        assert t[1..][1] == 'b';
        assert t[1..][1..28][0] == 'b';
      }
    }
    BlockRemoved(pre, ' ', ' ', "x", []);
    assert pre + LogBlock(' ', ' ', "x") + [] == pre + LogBlock(' ', ' ', "x");
  }

  // ---------------------------------------------------------------------
  // withCleanErrors
  // ---------------------------------------------------------------------

  /** A thrown `Error` object; `withCleanErrors` rewrites its fields in place. */
  class JsError {
    var message: string
    var stack: string

    constructor(message: string, stack: string)
      ensures this.message == message && this.stack == stack
    {
      this.message := message;
      this.stack := stack;
    }
  }

  /** How `await f()` completed. */
  datatype Completion<T> = Returned(value: T) | Threw(err: JsError)

  /** `withCleanErrors(f)`, given how `f` completed: a value is passed
      through; a thrown error has the logs blocks removed from its message
      and stack, and the same object is thrown again. */
  method WithCleanErrors<T>(f: Completion<T>) returns (r: Completion<T>)
    modifies if f.Threw? then {f.err} else {}
    ensures r == f
    ensures f.Threw? ==> f.err.message == StripLogBlocks(old(f.err.message))
                         && f.err.stack == StripLogBlocks(old(f.err.stack))
  {
    if f.Threw? {
      f.err.message := StripLogBlocks(f.err.message);
      f.err.stack := StripLogBlocks(f.err.stack);
    }
    r := f;
  }
}

=== FILE: schwab.dfy ===
/** lib/schwab.js: the trade flow on top of the session. A trade is
    verified with one POST, and confirmed with a second POST only when the
    verification succeeded and the caller did not ask for a dry run. The
    HTTP round trip is replaced by its reply, given as a parameter. */
module Schwab {
  import opened Wrappers
  import opened Js
  import opened Text

  // ---------------------------------------------------------------------
  // Trade types and argument values
  // ---------------------------------------------------------------------

  /** The two `TradeType` objects. */
  datatype TradeType = Buy | Sell {
    /** The `id` field. */
    function Id(): (n: int)
      ensures n == 1 <==> this == Buy
      ensures n == 2 <==> this == Sell
    {
      match this
      case Buy => 1
      case Sell => 2
    }

    /** The `toString()` result. */
    function Name(): (s: string)
      ensures s == "Buy" <==> this == Buy
      ensures s == "Sell" <==> this == Sell
    {
      match this
      case Buy => "Buy"
      case Sell => "Sell"
    }
  }

  /** A value a caller passes in `props` or `requestProperties`: one of the
      two `TradeType` objects (compared by identity), or any other value. */
  datatype Arg = TradeTypeRef(t: TradeType) | Value(v: JsValue)

  /** An object with string keys, as passed to and built by the trade
      functions. */
  type Props = map<string, Arg>

  /** `props[key]`, where a missing key reads as `undefined`. */
  function Field(props: Props, key: string): (a: Arg)
    ensures key in props ==> a == props[key]
    ensures key !in props ==> a == Value(Undefined)
  {
    if key in props then props[key] else Value(Undefined)
  }

  /** `Object.values(TradeType).includes(a)`: true only for the two
      `TradeType` objects themselves. */
  predicate IsTradeType(a: Arg)
    ensures IsTradeType(a) <==> a.TradeTypeRef?
  {
    assert a.TradeTypeRef? ==> a.t.Buy? || a.t.Sell?;
    a in [TradeTypeRef(Buy), TradeTypeRef(Sell)]
  }

  /** How a template literal renders an argument. */
  function Display(a: Arg): string {
    match a
    case TradeTypeRef(t) => t.Name()
    case Value(v) => ToDisplayString(v)
  }

  // ---------------------------------------------------------------------
  // _validateProperties
  // ---------------------------------------------------------------------

  const TradeRequired: seq<string> := ["tradeType", "ticker", "quantity", "accountId"]

  function MissingMessage(p: string): string {
    "Required property '" + p + " missing in object."
  }

  /** The messages of the errors built for the required properties that
      are not keys of the object, in the order of `required`. */
  function MissingMessages(keys: set<string>, required: seq<string>): (ms: seq<string>)
    ensures |ms| <= |required|
  {
    if required == [] then []
    else
      var last := required[|required| - 1];
      MissingMessages(keys, required[..|required| - 1]) + (if last in keys then [] else [MissingMessage(last)])
  }

  /** An error message is built exactly for each required property that is
      missing. */
  lemma {:induction false} MissingMessagesExact(keys: set<string>, required: seq<string>, p: string)
    ensures MissingMessage(p) in MissingMessages(keys, required) <==> p in required && p !in keys
    decreases |required|
  {
    if required != [] {
      var init := required[..|required| - 1];
      var last := required[|required| - 1];
      MissingMessagesExact(keys, init, p);
      assert required == init + [last];
      MissingMessageInjective(p, last);
    }
  }

  lemma MissingMessageInjective(p: string, q: string)
    ensures MissingMessage(p) == MissingMessage(q) ==> p == q
  {
    if MissingMessage(p) == MissingMessage(q) {
      var prefix := "Required property '";
      var suffix := " missing in object.";
      assert MissingMessage(p)[|prefix|..|prefix| + |p|] == p;
      assert |p| == |q|;
      assert MissingMessage(q)[|prefix|..|prefix| + |q|] == q;
    }
  }

  /** `_validateProperties(props, required)`: it resolves with `props`
      itself whatever keys are missing, because the error built for a
      missing property is never thrown. `discarded` lists the messages of
      those unthrown errors. */
  method ValidateProperties<V>(props: map<string, V>, required: seq<string>)
    returns (r: Result<map<string, V>, string>, discarded: seq<string>)
    ensures r == Success(props)
    ensures discarded == MissingMessages(props.Keys, required)
  {
    var provided := props.Keys;
    discarded := [];
    var i := 0;
    while i < |required|
      invariant 0 <= i <= |required|
      invariant discarded == MissingMessages(provided, required[..i])
    {
      var p := required[i];
      assert required[..i + 1][..i] == required[..i];
      if p !in provided {
        discarded := discarded + [MissingMessage(p)];
      }
      i := i + 1;
    }
    assert required[..|required|] == required;
    r := Success(props);
  }

  // ---------------------------------------------------------------------
  // Request bodies
  // ---------------------------------------------------------------------

  function Str(s: string): Arg {
    Value(JsValue.Str(s))
  }

  function Flag(b: bool): Arg {
    Value(Bool(b))
  }

  function Number(n: int): Arg {
    Value(Num(n))
  }

  const VerifyTradeKeys: set<string> := {"BuySellCode", "CustomerId", "Quantity", "SecurityId"}

  const VerifyFixedKeys: set<string> :=
    {"CblDefault", "CblMethod", "CostBasis", "IsMinQty", "IsReinvestDividends", "OrderType", "TimeInForce"}

  const VerifyKeys: set<string> := VerifyTradeKeys + VerifyFixedKeys

  lemma VerifyPartsDisjoint()
    ensures VerifyTradeKeys !! VerifyFixedKeys
  {
  }

  /** The verification defaults taken from the trade type and `props`. */
  function VerifyTradePart(t: TradeType, props: Props): (d: Props)
    ensures d.Keys == VerifyTradeKeys
    ensures d["CustomerId"] == Field(props, "accountId") && d["BuySellCode"] == Number(t.Id())
    ensures d["Quantity"] == Field(props, "quantity") && d["SecurityId"] == Field(props, "ticker")
  {
    map[
      "CustomerId" := Field(props, "accountId"),
      "BuySellCode" := Number(t.Id()),
      "Quantity" := Field(props, "quantity"),
      "SecurityId" := Field(props, "ticker")]
  }

  /** The verification defaults that are the same for every trade. */
  function VerifyFixedPart(): (d: Props)
    ensures d.Keys == VerifyFixedKeys
    ensures d["IsMinQty"] == Flag(false) && d["IsReinvestDividends"] == Flag(false)
    ensures d["TimeInForce"] == Str("1") && d["OrderType"] == Number(1)
    ensures d["CblMethod"] == Str("FIFO") && d["CblDefault"] == Str("FIFO") && d["CostBasis"] == Str("FIFO")
  {
    map[
      "IsMinQty" := Flag(false),
      "IsReinvestDividends" := Flag(false),
      "TimeInForce" := Str("1"),
      "OrderType" := Number(1),
      "CblMethod" := Str("FIFO"),
      "CblDefault" := Str("FIFO"),
      "CostBasis" := Str("FIFO")]
  }

  /** The verification body: the fixed defaults, then every key of
      `requestProperties`, which wins over a default of the same name. */
  function VerifyRequest(t: TradeType, props: Props, requestProperties: Props): (body: Props)
    ensures body.Keys == VerifyKeys + requestProperties.Keys
    ensures forall k :: k in requestProperties ==> body[k] == requestProperties[k]
    ensures "CustomerId" !in requestProperties ==> body["CustomerId"] == Field(props, "accountId")
    ensures "BuySellCode" !in requestProperties ==> body["BuySellCode"] == Number(t.Id())
    ensures "Quantity" !in requestProperties ==> body["Quantity"] == Field(props, "quantity")
    ensures "SecurityId" !in requestProperties ==> body["SecurityId"] == Field(props, "ticker")
    ensures "IsMinQty" !in requestProperties ==> body["IsMinQty"] == Flag(false)
    ensures "IsReinvestDividends" !in requestProperties ==> body["IsReinvestDividends"] == Flag(false)
    ensures "TimeInForce" !in requestProperties ==> body["TimeInForce"] == Str("1")
    ensures "OrderType" !in requestProperties ==> body["OrderType"] == Number(1)
    ensures forall k :: k in {"CblMethod", "CblDefault", "CostBasis"} && k !in requestProperties ==>
              body[k] == Str("FIFO")
  {
    VerifyPartsDisjoint();
    VerifyTradePart(t, props) + VerifyFixedPart() + requestProperties
  }

  /** An error the trade functions report: the invalid trade type they
      reject themselves, a `TypeError` from the engine (named by the
      expression that failed), or a rejected POST. */
  datatype TradeError = InvalidTradeType(shown: string) | TypeError(expression: string) | Rejected(reason: string) {
    function Message(): (m: Option<string>)
      ensures m.Some? <==> InvalidTradeType?
    {
      match this
      case InvalidTradeType(shown) =>
        Some("Invalid trade type '" + shown + "', please use either TradeType.Buy or TradeType.Sell")
      case _ => None
    }
  }

  /** `verifyResult[k]` once `verifyResult` is known not to be nullish. */
  function Read(verifyResult: JsValue, k: string): Arg {
    match Member(verifyResult, k)
    case Success(x) => Value(x)
    case Failure(_) => Value(Undefined)
  }

  const TradeKeys: set<string> :=
    {"AccountId", "ActionType", "ActionTypeText", "BuyAction", "CostBasis", "CostBasisMethod", "IsMarketHours",
     "Quantity"}

  const OrderKeys: set<string> :=
    {"ItemIssueId", "NetAmount", "OrderId", "OrderType", "Principal", "ShortDescription", "Symbol", "Timing"}

  lemma PartsDisjoint()
    ensures TradeKeys !! OrderKeys
  {
  }

  /** The confirmation defaults taken from the trade type and `props`. */
  function ConfirmTradePart(t: TradeType, props: Props): (d: Props)
    ensures d.Keys == TradeKeys
    ensures d["BuyAction"] == Flag(t.Id() == Buy.Id())
    ensures d["ActionType"] == Str(t.Name()) && d["ActionTypeText"] == Str(t.Name())
    ensures d["AccountId"] == Field(props, "accountId") && d["Quantity"] == Field(props, "quantity")
    ensures d["CostBasis"] == Str("FIFO") && d["CostBasisMethod"] == Str("FIFO")
    ensures d["IsMarketHours"] == Flag(true)
  {
    map[
      "AccountId" := Field(props, "accountId"),
      "ActionType" := Str(t.Name()),
      "ActionTypeText" := Str(t.Name()),
      "BuyAction" := Flag(t.Id() == Buy.Id()),
      "CostBasis" := Str("FIFO"),
      "CostBasisMethod" := Str("FIFO"),
      "IsMarketHours" := Flag(true),
      "Quantity" := Field(props, "quantity")]
  }

  /** The confirmation defaults taken from the verify result. */
  function ConfirmOrderPart(verifyResult: JsValue, description: string): (d: Props)
    ensures d.Keys == OrderKeys
    ensures d["OrderId"] == Read(verifyResult, "Id") && d["Principal"] == Read(verifyResult, "QuoteAmount")
    ensures d["ItemIssueId"] == Read(verifyResult, "IssueId") && d["NetAmount"] == Read(verifyResult, "NetAmount")
    ensures d["Symbol"] == Read(verifyResult, "IssueSymbol")
    ensures d["ShortDescription"] == Str(ReplaceFirst(description, ' ', '+'))
    ensures d["OrderType"] == Str("Market") && d["Timing"] == Str("Day Only")
  {
    map[
      "ItemIssueId" := Read(verifyResult, "IssueId"),
      "NetAmount" := Read(verifyResult, "NetAmount"),
      "OrderId" := Read(verifyResult, "Id"),
      "OrderType" := Str("Market"),
      "Principal" := Read(verifyResult, "QuoteAmount"),
      "ShortDescription" := Str(ReplaceFirst(description, ' ', '+')),
      "Symbol" := Read(verifyResult, "IssueSymbol"),
      "Timing" := Str("Day Only")]
  }

  /** The confirmation body. Reading `verifyResult.Id` throws when the
      verify result is `undefined` or `null`, and `.replace` throws when
      `IssueShortDescription` is not a string; otherwise the defaults are
      built from the trade type, `props` and the verify result, and
      `requestProperties` wins over them. */
  function ConfirmRequest(t: TradeType, props: Props, verifyResult: JsValue, requestProperties: Props)
    : (r: Result<Props, TradeError>)
    ensures (verifyResult.Undefined? || verifyResult.Null?) ==> r == Failure(TypeError("Id"))
    ensures r.Success? <==>
              Member(verifyResult, "IssueShortDescription").Success?
              && Member(verifyResult, "IssueShortDescription").value.Str?
    ensures r.Failure? && !(verifyResult.Undefined? || verifyResult.Null?) ==>
              r == Failure(TypeError("IssueShortDescription.replace"))
    ensures r.Success? ==>
              r.value.Keys == TradeKeys + OrderKeys + requestProperties.Keys
              && forall k :: k in requestProperties ==> r.value[k] == requestProperties[k]
    ensures r.Success? ==>
              var body := r.value;
              ("BuyAction" !in requestProperties ==>
                 (body["BuyAction"] == Flag(true) <==> t.Id() == Buy.Id())
                 && (body["BuyAction"] == Flag(false) <==> t.Id() != Buy.Id()))
              && ("ActionType" !in requestProperties ==> body["ActionType"] == Str(t.Name()))
              && ("ActionTypeText" !in requestProperties ==> body["ActionTypeText"] == Str(t.Name()))
              && ("AccountId" !in requestProperties ==> body["AccountId"] == Field(props, "accountId"))
              && ("Quantity" !in requestProperties ==> body["Quantity"] == Field(props, "quantity"))
              && ("CostBasis" !in requestProperties ==> body["CostBasis"] == Str("FIFO"))
              && ("CostBasisMethod" !in requestProperties ==> body["CostBasisMethod"] == Str("FIFO"))
              && ("IsMarketHours" !in requestProperties ==> body["IsMarketHours"] == Flag(true))
    ensures r.Success? ==>
              var body := r.value;
              ("OrderId" !in requestProperties ==> body["OrderId"] == Read(verifyResult, "Id"))
              && ("Principal" !in requestProperties ==> body["Principal"] == Read(verifyResult, "QuoteAmount"))
              && ("ItemIssueId" !in requestProperties ==> body["ItemIssueId"] == Read(verifyResult, "IssueId"))
              && ("NetAmount" !in requestProperties ==> body["NetAmount"] == Read(verifyResult, "NetAmount"))
              && ("Symbol" !in requestProperties ==> body["Symbol"] == Read(verifyResult, "IssueSymbol"))
              && ("ShortDescription" !in requestProperties ==>
                    body["ShortDescription"]
                    == Str(ReplaceFirst(Member(verifyResult, "IssueShortDescription").value.s, ' ', '+')))
              && ("OrderType" !in requestProperties ==> body["OrderType"] == Str("Market"))
              && ("Timing" !in requestProperties ==> body["Timing"] == Str("Day Only"))
  {
    if Member(verifyResult, "Id").Failure? then Failure(TypeError("Id"))
    else
      var description := Member(verifyResult, "IssueShortDescription").value;
      if !description.Str? then Failure(TypeError("IssueShortDescription.replace"))
      else
        PartsDisjoint();
        Success(ConfirmTradePart(t, props) + ConfirmOrderPart(verifyResult, description.s) + requestProperties)
  }

  /** `replace(' ', '+')` changes the first space only. */
  lemma ShortDescriptionFirstSpaceOnly()
    ensures ReplaceFirst("A B C", ' ', '+') == "A+B C"
  {
    ReplaceFirstAfter("A", ' ', '+', "B C");
    assert "A B C" == "A" + [' '] + "B C";
  }

  // ---------------------------------------------------------------------
  // Replies and the result objects
  // ---------------------------------------------------------------------

  /** The outcome of `this.post(...)`: the parsed body together with a
      status code, or a rejection. */
  datatype PostReply = Responded(body: JsValue, statusCode: JsValue) | PostFailed(reason: string)

  datatype Url = OrderVerification | OrderConfirmation

  datatype Post = Post(url: Url, body: Props)

  /** The object `verify`/`confirm` resolve with: `successful()` and
      `result()`; `messages()` is `Messages()` below. */
  datatype OrderResult = OrderResult(successful: bool, result: JsValue) {
    /** `messages()`: the `Message` of each entry of `result.Messages`. */
    function Messages(): (r: Result<seq<JsValue>, TradeError>)
      ensures r.Success? ==> Member(result, "Messages").Success? && Member(result, "Messages").value.Arr?
      ensures r.Success? ==> var items := Member(result, "Messages").value.items;
                            |r.value| == |items|
                            && forall i :: 0 <= i < |items| ==> Success(r.value[i]) == Member(items[i], "Message")
      ensures Member(result, "Messages").Success? && Member(result, "Messages").value.Arr? ==>
              r == MessagesOf(Member(result, "Messages").value.items)
      ensures Member(result, "Messages").Failure? || !Member(result, "Messages").value.Arr? ==> r.Failure?
    {
      match Member(result, "Messages")
      case Failure(p) => Failure(TypeError(p))
      case Success(list) =>
        if list.Arr? then MessagesOf(list.items) else Failure(TypeError("Messages.map"))
    }
  }

  /** `items.map(m => m.Message)`; the first `undefined` or `null` entry
      throws. */
  function MessagesOf(items: seq<JsValue>): (r: Result<seq<JsValue>, TradeError>)
    ensures r.Success? <==> forall i :: 0 <= i < |items| ==> !(items[i].Undefined? || items[i].Null?)
    ensures r.Success? ==>
              |r.value| == |items|
              && forall i :: 0 <= i < |items| ==> Success(r.value[i]) == Member(items[i], "Message")
    ensures r.Failure? ==> r.error == TypeError("Message")
  {
    if items == [] then Success([])
    else
      match Member(items[0], "Message")
      case Failure(p) => Failure(TypeError(p))
      case Success(m) =>
        match MessagesOf(items[1..])
        case Failure(e) => Failure(e)
        case Success(ms) =>
          assert forall i :: 1 <= i < |items| ==> items[i] == items[1..][i - 1];
          Success([m] + ms)
  }

  /** The reply handler: `statusCode === 200 && res.ReturnCode === 0`;
      `ReturnCode` is read only when the status is 200. */
  function OrderOutcome(reply: PostReply): (r: Result<OrderResult, TradeError>)
    ensures reply.PostFailed? ==> r == Failure(Rejected(reply.reason))
    ensures r.Success? ==> reply.Responded? && r.value.result == reply.body
    ensures r.Success? ==>
              (r.value.successful <==>
                 reply.statusCode == Num(200) && Member(reply.body, "ReturnCode") == Success(Num(0)))
    ensures r.Failure? && reply.Responded? ==>
              reply.statusCode == Num(200) && (reply.body.Undefined? || reply.body.Null?)
    ensures reply.Responded? && reply.statusCode == Num(200) && (reply.body.Undefined? || reply.body.Null?) ==>
              r == Failure(TypeError("ReturnCode"))
  {
    match reply
    case PostFailed(reason) => Failure(Rejected(reason))
    case Responded(body, statusCode) =>
      if statusCode != Num(200) then Success(OrderResult(false, body))
      else
        match Member(body, "ReturnCode")
        case Failure(p) => Failure(TypeError(p))
        case Success(code) => Success(OrderResult(code == Num(0), body))
  }

  // ---------------------------------------------------------------------
  // verify and confirm
  // ---------------------------------------------------------------------

  /** The POSTs one call made, and how it settled. */
  datatype Call = Call(posts: seq<Post>, result: Result<OrderResult, TradeError>)

  /** `verify(props, requestProperties)`, with `reply` standing for the
      answer to its POST. */
  function Verify(props: Props, requestProperties: Props, reply: PostReply): (c: Call)
    ensures !IsTradeType(Field(props, "tradeType")) ==>
              c == Call([], Failure(InvalidTradeType(Display(Field(props, "tradeType")))))
    ensures IsTradeType(Field(props, "tradeType")) ==>
              c.posts == [Post(OrderVerification, VerifyRequest(Field(props, "tradeType").t, props, requestProperties))]
              && c.result == OrderOutcome(reply)
  {
    var tradeType := Field(props, "tradeType");
    if !IsTradeType(tradeType) then Call([], Failure(InvalidTradeType(Display(tradeType))))
    else Call([Post(OrderVerification, VerifyRequest(tradeType.t, props, requestProperties))], OrderOutcome(reply))
  }

  /** `confirm(props, verifyResult, requestProperties)`, with `reply`
      standing for the answer to its POST. The trade type is checked before
      the verify result is read. */
  function Confirm(props: Props, verifyResult: JsValue, requestProperties: Props, reply: PostReply): (c: Call)
    ensures !IsTradeType(Field(props, "tradeType")) ==>
              c == Call([], Failure(InvalidTradeType(Display(Field(props, "tradeType")))))
    ensures IsTradeType(Field(props, "tradeType")) ==>
              var body := ConfirmRequest(Field(props, "tradeType").t, props, verifyResult, requestProperties);
              (body.Failure? ==> c == Call([], Failure(body.error)))
              && (body.Success? ==> c == Call([Post(OrderConfirmation, body.value)], OrderOutcome(reply)))
  {
    var tradeType := Field(props, "tradeType");
    if !IsTradeType(tradeType) then Call([], Failure(InvalidTradeType(Display(tradeType))))
    else
      match ConfirmRequest(tradeType.t, props, verifyResult, requestProperties)
      case Failure(e) => Call([], Failure(e))
      case Success(body) => Call([Post(OrderConfirmation, body)], OrderOutcome(reply))
  }

  // ---------------------------------------------------------------------
  // trade
  // ---------------------------------------------------------------------

  /** `props.dryRun === true`. */
  predicate DryRun(props: Props)
    ensures DryRun(props) <==> "dryRun" in props && props["dryRun"] == Value(Bool(true))
  {
    Field(props, "dryRun") == Flag(true)
  }

  datatype TradeOutcome = TradeOutcome(verification: OrderResult, confirmation: Option<OrderResult>)

  datatype TradeRun = TradeRun(posts: seq<Post>, result: Result<TradeOutcome, TradeError>)

  /** `trade(props)`, where `handOff` says what is passed to `confirm` as
      the verify result. */
  function TradeWith(props: Props, verifyReply: PostReply, confirmReply: PostReply, handOff: OrderResult -> JsValue)
    : (r: TradeRun)
    ensures r.result.Success? ==> Verify(props, map[], verifyReply).result == Success(r.result.value.verification)
    ensures DryRun(props) ==> |r.posts| <= 1 && (r.result.Success? ==> r.result.value.confirmation.None?)
  {
    var v := Verify(props, map[], verifyReply);
    match v.result
    case Failure(e) => TradeRun(v.posts, Failure(e))
    case Success(verification) =>
      if DryRun(props) || !verification.successful then TradeRun(v.posts, Success(TradeOutcome(verification, None)))
      else
        var c := Confirm(props, handOff(verification), map[], confirmReply);
        match c.result
        case Failure(e) => TradeRun(v.posts + c.posts, Failure(e))
        case Success(confirmation) => TradeRun(v.posts + c.posts, Success(TradeOutcome(verification, Some(confirmation))))
  }

  /** The POSTs of a trade: the verification's, then the confirmation's
      exactly when the verification succeeded and it is not a dry run. */
  lemma TradePosts(props: Props, verifyReply: PostReply, confirmReply: PostReply, handOff: OrderResult -> JsValue)
    ensures var v := Verify(props, map[], verifyReply);
            var confirming := v.result.Success? && v.result.value.successful && !DryRun(props);
            TradeWith(props, verifyReply, confirmReply, handOff).posts
            == v.posts + (if confirming then Confirm(props, handOff(v.result.value), map[], confirmReply).posts else [])
  {
    var v := Verify(props, map[], verifyReply);
    assert v.posts + [] == v.posts;
  }

  /** A trade that made two POSTs verified successfully, was not a dry run,
      and then made the confirmation call. */
  lemma TwoPostsMeanConfirmed(props: Props, verifyReply: PostReply, confirmReply: PostReply,
                              handOff: OrderResult -> JsValue)
    requires |TradeWith(props, verifyReply, confirmReply, handOff).posts| == 2
    ensures var v := Verify(props, map[], verifyReply);
            v.result.Success? && !DryRun(props) && v.result.value.successful
            && TradeWith(props, verifyReply, confirmReply, handOff).posts
               == v.posts + Confirm(props, handOff(v.result.value), map[], confirmReply).posts
  {
  }

  /** A trade reports a confirmation only when the verification succeeded
      and `confirm`, given the handed-off value, succeeded too. */
  lemma TradeConfirmed(props: Props, verifyReply: PostReply, confirmReply: PostReply, handOff: OrderResult -> JsValue)
    ensures var r := TradeWith(props, verifyReply, confirmReply, handOff);
            var v := Verify(props, map[], verifyReply);
            r.result.Success? && r.result.value.confirmation.Some?
            ==> v.result.Success? && Confirm(props, handOff(v.result.value), map[], confirmReply).result.Success?
  {
  }

  /** The object `verify` resolves with, as `trade` passes it to `confirm`:
      its only keys are the three accessor functions. */
  function ResultObject(v: OrderResult): (o: JsValue)
    ensures o.Obj? && o.fields.Keys == {"successful", "messages", "result"}
    ensures forall k :: k in o.fields ==> o.fields[k].Func?
    ensures Member(o, "IssueShortDescription") == Success(Undefined) && Member(o, "Id") == Success(Undefined)
  {
    Obj(map["successful" := Func("() => verificationSuccess", 0),
            "messages" := Func("() => res.Messages.map((messageData) => messageData.Message)", 0),
            "result" := Func("() => res", 0)])
  }

  /** `trade` as written: `confirm` receives the object `verify` resolved
      with. */
  function TradeAsWritten(props: Props, verifyReply: PostReply, confirmReply: PostReply): (r: TradeRun)
    ensures r.result.Success? ==> r.result.value.confirmation.None?
  {
    var v := Verify(props, map[], verifyReply);
    TradeConfirmed(props, verifyReply, confirmReply, ResultObject);
    if v.result.Success? then
      ConfirmOfResultObjectThrows(props, v.result.value, confirmReply);
      TradeWith(props, verifyReply, confirmReply, ResultObject)
    else
      TradeWith(props, verifyReply, confirmReply, ResultObject)
  }

  /** `trade` with the evident intent: `confirm` receives the verification
      response, `verificationResult.result()`. */
  function TradeSpec(props: Props, verifyReply: PostReply, confirmReply: PostReply): TradeRun {
    TradeWith(props, verifyReply, confirmReply, (v: OrderResult) => v.result)
  }

  /** As written, a verified trade that is not a dry run can never be
      confirmed: reading `IssueShortDescription` of the accessor object
      gives `undefined`, and calling `replace` on it throws before the
      confirmation POST. */
  lemma AsWrittenNeverConfirms(props: Props, verifyReply: PostReply, confirmReply: PostReply)
    requires !DryRun(props)
    requires var v := Verify(props, map[], verifyReply); v.result.Success? && v.result.value.successful
    ensures var run := TradeAsWritten(props, verifyReply, confirmReply);
            run.result == Failure(TypeError("IssueShortDescription.replace"))
            && run.posts == Verify(props, map[], verifyReply).posts
            && forall i :: 0 <= i < |run.posts| ==> run.posts[i].url == OrderVerification
  {
    var v := Verify(props, map[], verifyReply);
    ConfirmOfResultObjectThrows(props, v.result.value, confirmReply);
    assert v.posts + [] == v.posts;
  }

  /** `confirm` given the accessor object throws before posting. */
  lemma ConfirmOfResultObjectThrows(props: Props, v: OrderResult, reply: PostReply)
    requires IsTradeType(Field(props, "tradeType"))
    ensures Confirm(props, ResultObject(v), map[], reply) == Call([], Failure(TypeError("IssueShortDescription.replace")))
  {
    assert Member(ResultObject(v), "IssueShortDescription") == Success(Undefined);
  }

  /** A concrete run of the same discrepancy: a Buy of one share whose
      verification succeeds. */
  lemma AsWrittenExample()
    ensures var props := map["tradeType" := TradeTypeRef(Buy), "ticker" := Str("AAPL"),
                             "quantity" := Number(1), "accountId" := Str("123")];
            var verifyBody := Obj(map["ReturnCode" := Num(0), "Id" := Num(7),
                                      "IssueShortDescription" := JsValue.Str("APPLE INC COM")]);
            var reply := Responded(verifyBody, Num(200));
            TradeAsWritten(props, reply, reply).result == Failure(TypeError("IssueShortDescription.replace"))
            && TradeSpec(props, reply, reply).result.Success?
            && TradeSpec(props, reply, reply).result.value.confirmation.Some?
  {
    var props := map["tradeType" := TradeTypeRef(Buy), "ticker" := Str("AAPL"),
                     "quantity" := Number(1), "accountId" := Str("123")];
    var verifyBody := Obj(map["ReturnCode" := Num(0), "Id" := Num(7),
                              "IssueShortDescription" := JsValue.Str("APPLE INC COM")]);
    var reply := Responded(verifyBody, Num(200));
    assert Field(props, "tradeType") == TradeTypeRef(Buy);
    assert Field(props, "dryRun") == Value(Undefined);
    assert Member(verifyBody, "ReturnCode") == Success(Num(0));
    AsWrittenNeverConfirms(props, reply, reply);
    assert Member(verifyBody, "IssueShortDescription") == Success(JsValue.Str("APPLE INC COM"));
  }

  /** `confirm` is called (and its POST made) exactly when verification
      succeeded and the trade is not a dry run, and the confirmation body is
      built from the verification response. */
  lemma ConfirmOnlyAfterSuccessfulVerification(props: Props, verifyReply: PostReply, confirmReply: PostReply)
    ensures var run := TradeSpec(props, verifyReply, confirmReply);
            var v := Verify(props, map[], verifyReply);
            var confirming := v.result.Success? && v.result.value.successful && !DryRun(props);
            run.posts == v.posts + (if confirming then Confirm(props, v.result.value.result, map[], confirmReply).posts else [])
            && (!confirming ==> forall i :: 0 <= i < |run.posts| ==> run.posts[i].url == OrderVerification)
  {
    TradePosts(props, verifyReply, confirmReply, (x: OrderResult) => x.result);
  }

  /** A dry run never confirms, whatever the verification says. */
  lemma DryRunNeverConfirms(props: Props, verifyReply: PostReply, confirmReply: PostReply)
    requires DryRun(props)
    ensures var run := TradeSpec(props, verifyReply, confirmReply);
            |run.posts| <= 1
            && (forall i :: 0 <= i < |run.posts| ==> run.posts[i].url == OrderVerification)
            && (run.result.Success? ==> run.result.value.confirmation.None?)
  {
  }

  /** A settled trade always reports the verification result; the
      confirmation is present exactly when `confirm` was called. */
  lemma TradeReportsVerification(props: Props, verifyReply: PostReply, confirmReply: PostReply)
    ensures var run := TradeSpec(props, verifyReply, confirmReply);
            var v := Verify(props, map[], verifyReply);
            run.result.Success? ==>
              v.result.Success? && run.result.value.verification == v.result.value
              && (run.result.value.confirmation.Some? <==> v.result.value.successful && !DryRun(props))
  {
  }

  /** A confirmation POST carries the `Id` of the verify result it was
      given as its `OrderId`. */
  lemma ConfirmCarriesOrderId(props: Props, verifyResult: JsValue, reply: PostReply)
    requires Confirm(props, verifyResult, map[], reply).posts != []
    ensures var c := Confirm(props, verifyResult, map[], reply);
            c.posts[0].url == OrderConfirmation && c.posts[0].body["OrderId"] == Read(verifyResult, "Id")
  {
  }

  /** A valid confirmation carries the order id the verification returned. */
  lemma ConfirmationUsesVerifiedOrder(props: Props, verifyReply: PostReply, confirmReply: PostReply)
    requires var run := TradeSpec(props, verifyReply, confirmReply);
             |run.posts| == 2
    ensures var run := TradeSpec(props, verifyReply, confirmReply);
            verifyReply.Responded?
            && run.posts[0].url == OrderVerification && run.posts[1].url == OrderConfirmation
            && run.posts[1].body["OrderId"] == Read(verifyReply.body, "Id")
  {
    var v := Verify(props, map[], verifyReply);
    TwoPostsMeanConfirmed(props, verifyReply, confirmReply, (x: OrderResult) => x.result);
    ConfirmCarriesOrderId(props, v.result.value.result, confirmReply);
  }

  /** The response object `trade` fills in as the calls settle; `None`
      stands for the initial `{}`. */
  class TradeResponse {
    var verification: Option<OrderResult>
    var confirmation: Option<OrderResult>

    constructor()
      ensures verification.None? && confirmation.None?
    {
      verification := None;
      confirmation := None;
    }
  }

  /** `trade(props)`: validates (to no effect), verifies, and confirms
      unless the verification failed or it is a dry run, handing the
      verification response to `confirm`. */
  method Trade(props: Props, verifyReply: PostReply, confirmReply: PostReply)
    returns (r: Result<TradeResponse, TradeError>, posts: seq<Post>)
    ensures posts == TradeSpec(props, verifyReply, confirmReply).posts
    ensures r.Failure? <==> TradeSpec(props, verifyReply, confirmReply).result.Failure?
    ensures r.Failure? ==> r.error == TradeSpec(props, verifyReply, confirmReply).result.error
    ensures r.Success? ==>
              var outcome := TradeSpec(props, verifyReply, confirmReply).result.value;
              fresh(r.value)
              && r.value.verification == Some(outcome.verification)
              && r.value.confirmation == outcome.confirmation
  {
    ghost var run := TradeSpec(props, verifyReply, confirmReply);
    var _, _ := ValidateProperties(props, TradeRequired);
    var dryRun := Field(props, "dryRun") == Flag(true);
    var response := new TradeResponse();
    var v := Verify(props, map[], verifyReply);
    posts := v.posts;
    if v.result.Failure? {
      r := Failure(v.result.error);
      return;
    }
    response.verification := Some(v.result.value);
    if dryRun || !v.result.value.successful {
      r := Success(response);
      return;
    }
    var c := Confirm(props, v.result.value.result, map[], confirmReply);
    posts := posts + c.posts;
    assert run.posts == posts;
    if c.result.Failure? {
      r := Failure(c.result.error);
      return;
    }
    response.confirmation := Some(c.result.value);
    r := Success(response);
  }
}

=== FILE: session.dfy ===
/** lib/session.js: `SchwabSession`, which holds at most one cookie
    credential, logs in through a browser (primary login, then an SMS code
    when the site asks for one) when the credential is missing or expired,
    and decorates outgoing requests with the credential's `Cookie` header.

    The browser, the readline prompt and the clock are replaced by inputs:
    `now` (epoch seconds) and a `Driver` record saying how the browser steps
    end and what code the user types. */
module Session {
  import opened Wrappers
  import opened Js
  import opened Text
  import Logging

  // ---------------------------------------------------------------------
  // Configuration
  // ---------------------------------------------------------------------

  datatype BrowserType = Firefox | Webkit | Chromium

  /** The constructor's options object; `browserType` is `None` when it is
      falsy. */
  datatype SessionOptions = SessionOptions(
    username: JsValue,
    password: JsValue,
    totpSecret: JsValue,
    browserType: Option<BrowserType>,
    headless: JsValue)

  /** What the constructor keeps of its options. */
  datatype Config = Config(
    username: JsValue,
    password: JsValue,
    totpSecret: JsValue,
    browserType: BrowserType,
    headless: bool)

  datatype SessionError =
    | MissingOptions
    | NotLoggedIn
    | SessionExpired(expires: int, now: int)
    | DriverFailed(message: string)
    /** `reduce` over an empty cookie list (a `TypeError` from the engine). */
    | EmptyCookieList
    /** `request.headers` read on an undefined request (a `TypeError`). */
    | MissingRequest
    /** `apply(request)` with a non-function `apply` (a `TypeError`). */
    | ApplyNotCallable
  {
    /** The text of the errors the source raises itself; the wording of the
        engine's `TypeError`s is not part of this model. */
    function Message(): (m: Option<string>)
      ensures m.Some? <==> !(EmptyCookieList? || MissingRequest? || ApplyNotCallable?)
      ensures DriverFailed? ==> m == Some(message)
    {
      match this
      case MissingOptions => Some("You must provide an options object to initialize a SchwabSession.")
      case NotLoggedIn => Some("not logged in: you must log-in before authenticating a request.")
      case SessionExpired(expires, now) =>
        Some(ExpiredText(IntToString(expires), IntToString(now)))
      case DriverFailed(message) => Some(message)
      case EmptyCookieList => None
      case MissingRequest => None
      case ApplyNotCallable => None
    }
  }

  /** Text split at its first `,`: the part before it is determined. */
  lemma SplitAtFirstComma(a1: string, r1: string, a2: string, r2: string)
    requires ',' !in a1 && ',' !in a2
    requires a1 + [','] + r1 == a2 + [','] + r2
    ensures a1 == a2 && r1 == r2
  {
    IndexOfAfter(a1, ',', r1);
    IndexOfAfter(a2, ',', r2);
  }

  /** Equal text with equal surroundings has equal middles. */
  lemma Cancel(x: string, b1: string, b2: string, y: string)
    requires x + b1 + y == x + b2 + y
    ensures b1 == b2
  {
    assert |b1| == |b2|;
    assert b1 == (x + b1 + y)[|x|..|x| + |b1|];
    assert b2 == (x + b2 + y)[|x|..|x| + |b2|];
  }

  const ExpiredPrefix: string := "session expired at "
  const ExpiredMiddle: string := " current time: "
  const ExpiredSuffix: string := ": please log-in again."

  /** The expired-session text around the two rendered integers. */
  function ExpiredText(a: string, b: string): string {
    ExpiredPrefix + a + ", current time: " + b + ExpiredSuffix
  }

  lemma ExpiredTextShape(a: string, b: string)
    ensures ExpiredText(a, b) == ExpiredPrefix + (a + [','] + (ExpiredMiddle + b + ExpiredSuffix)) + []
  {
    assert ", current time: " == [','] + ExpiredMiddle;
  }

  /** The expired-session text determines the expiry and the current time
      it reports, negative values included. */
  lemma ExpiredMessageDetermines(e1: int, n1: int, e2: int, n2: int)
    ensures SessionExpired(e1, n1).Message() == SessionExpired(e2, n2).Message() ==> e1 == e2 && n1 == n2
  {
    var a1, a2 := IntToString(e1), IntToString(e2);
    var b1, b2 := IntToString(n1), IntToString(n2);
    if SessionExpired(e1, n1).Message() == SessionExpired(e2, n2).Message() {
      assert ExpiredText(a1, b1) == ExpiredText(a2, b2);
      ExpiredTextShape(a1, b1);
      ExpiredTextShape(a2, b2);
      var r1 := ExpiredMiddle + b1 + ExpiredSuffix;
      var r2 := ExpiredMiddle + b2 + ExpiredSuffix;
      Cancel(ExpiredPrefix, a1 + [','] + r1, a2 + [','] + r2, []);
      SplitAtFirstComma(a1, r1, a2, r2);
      IntToStringInjective(e1, e2);
      Cancel(ExpiredMiddle, b1, b2, ExpiredSuffix);
      IntToStringInjective(n1, n2);
    }
  }

  /** The constructor: a falsy options object throws; the browser defaults
      to Firefox and `headless` is true unless it is exactly `false`. */
  function Configure(options: Option<SessionOptions>): (r: Result<Config, SessionError>)
    ensures r.Failure? <==> options.None?
    ensures r.Failure? ==> r.error == MissingOptions
    ensures r.Success? ==> r.value.headless == (options.value.headless != Bool(false))
    ensures r.Success? ==> r.value.browserType == options.value.browserType.GetOr(Firefox)
    ensures r.Success? ==> r.value.username == options.value.username
                           && r.value.password == options.value.password
                           && r.value.totpSecret == options.value.totpSecret
  {
    match options
    case None => Failure(MissingOptions)
    case Some(o) =>
      Success(Config(o.username, o.password, o.totpSecret,
                     if o.browserType.Some? then o.browserType.value else Firefox,
                     o.headless != Bool(false)))
  }

  // ---------------------------------------------------------------------
  // The credential built by saveCookiesAndCloseBrowser
  // ---------------------------------------------------------------------

  /** A cookie as the browser context reports it. */
  datatype RawCookie = RawCookie(name: string, value: string, expires: int)

  datatype CookiePair = CookiePair(name: string, value: string)

  /** The stored credential: the expiry chosen by the fold and the cookies'
      names and values. */
  datatype Credential = Credential(expires: int, cookies: seq<CookiePair>) {
    /** `getHeaderValue()`. */
    function HeaderValue(): string {
      Header(cookies)
    }
  }

  /** The reducer: keep the accumulator only if it is positive and strictly
      smaller than the next expiry, otherwise take the next one. */
  function Keep(prev: int, cur: int): (r: int)
    ensures r == prev || r == cur
    ensures r <= cur
    ensures r != cur ==> r > 0
  {
    if prev < cur && prev > 0 then prev else cur
  }

  /** `reduce` without an initial value, as a left fold. */
  function FoldExpiry(acc: int, rest: seq<int>): (r: int)
    ensures r == acc || r in rest
    decreases |rest|
  {
    if rest == [] then acc else FoldExpiry(Keep(acc, rest[0]), rest[1..])
  }

  /** The expiry stored for a non-empty list of cookie expiries. */
  function StoredExpiry(es: seq<int>): (r: int)
    requires es != []
    ensures r in es
  {
    FoldExpiry(es[0], es[1..])
  }

  function Expiries(raw: seq<RawCookie>): (es: seq<int>)
    ensures |es| == |raw| && forall i :: 0 <= i < |raw| ==> es[i] == raw[i].expires
  {
    seq(|raw|, i requires 0 <= i < |raw| => raw[i].expires)
  }

  function Pairs(raw: seq<RawCookie>): (ps: seq<CookiePair>)
    ensures |ps| == |raw| && forall i :: 0 <= i < |raw| ==> ps[i] == CookiePair(raw[i].name, raw[i].value)
  {
    seq(|raw|, i requires 0 <= i < |raw| => CookiePair(raw[i].name, raw[i].value))
  }

  /** The credential `saveCookiesAndCloseBrowser` stores, or the error the
      reduce throws on an empty list. */
  function CredentialFrom(raw: seq<RawCookie>): (r: Result<Credential, SessionError>)
    ensures r.Failure? <==> raw == []
    ensures r.Failure? ==> r.error == EmptyCookieList
    ensures r.Success? ==> r.value.cookies == Pairs(raw) && r.value.expires in Expiries(raw)
    ensures r.Success? ==> r.value.expires == StoredExpiry(Expiries(raw))
  {
    if raw == [] then Failure(EmptyCookieList)
    else
      var es := Expiries(raw);
      StoredExpiryIsAnExpiry(es);
      Success(Credential(StoredExpiry(es), Pairs(raw)))
  }

  lemma {:induction false} FoldIsAnElement(acc: int, rest: seq<int>)
    ensures FoldExpiry(acc, rest) in [acc] + rest
    decreases |rest|
  {
    if rest != [] {
      FoldIsAnElement(Keep(acc, rest[0]), rest[1..]);
      assert [acc] + rest == [acc] + [rest[0]] + rest[1..];
    }
  }

  /** The stored expiry is always the expiry of one of the cookies. */
  lemma StoredExpiryIsAnExpiry(es: seq<int>)
    requires es != []
    ensures StoredExpiry(es) in es
  {
    FoldIsAnElement(es[0], es[1..]);
    assert [es[0]] + es[1..] == es;
  }

  lemma {:induction false} FoldOfPositivesIsMinimum(acc: int, rest: seq<int>)
    requires acc > 0 && forall k :: 0 <= k < |rest| ==> rest[k] > 0
    ensures FoldExpiry(acc, rest) <= acc
    ensures forall k :: 0 <= k < |rest| ==> FoldExpiry(acc, rest) <= rest[k]
    decreases |rest|
  {
    if rest != [] {
      FoldOfPositivesIsMinimum(Keep(acc, rest[0]), rest[1..]);
      forall k | 1 <= k < |rest| ensures FoldExpiry(acc, rest) <= rest[k] {
        assert rest[k] == rest[1..][k - 1];
      }
    }
  }

  /** When every expiry is positive the stored expiry is their minimum. */
  lemma PositiveExpiriesGiveMinimum(es: seq<int>)
    requires es != [] && forall k :: 0 <= k < |es| ==> es[k] > 0
    ensures StoredExpiry(es) in es
    ensures forall k :: 0 <= k < |es| ==> StoredExpiry(es) <= es[k]
  {
    StoredExpiryIsAnExpiry(es);
    FoldOfPositivesIsMinimum(es[0], es[1..]);
    forall k | 1 <= k < |es| ensures StoredExpiry(es) <= es[k] {
      assert es[k] == es[1..][k - 1];
    }
  }

  lemma {:induction false} FoldSnoc(acc: int, rest: seq<int>, x: int)
    ensures FoldExpiry(acc, rest + [x]) == Keep(FoldExpiry(acc, rest), x)
    decreases |rest|
  {
    if rest == [] {
      assert (rest + [x])[1..] == [];
    } else {
      assert (rest + [x])[1..] == rest[1..] + [x];
      FoldSnoc(Keep(acc, rest[0]), rest[1..], x);
    }
  }

  /** A non-positive expiry at the end of the list (a session cookie reports
      -1) always becomes the stored expiry. */
  lemma TrailingNonPositiveWins(es: seq<int>)
    requires es != [] && es[|es| - 1] <= 0
    ensures StoredExpiry(es) == es[|es| - 1]
  {
    if |es| > 1 {
      var last := es[|es| - 1];
      assert es[1..] == es[1..|es| - 1] + [last];
      FoldSnoc(es[0], es[1..|es| - 1], last);
    }
  }

  /** The expiry of the stored credential: the earliest cookie expiry when
      all are positive, and the last cookie's expiry when that one is not
      positive. */
  lemma CredentialExpiry(raw: seq<RawCookie>)
    requires raw != []
    ensures (forall k :: 0 <= k < |raw| ==> raw[k].expires > 0) ==>
              (exists k :: 0 <= k < |raw| && CredentialFrom(raw).value.expires == raw[k].expires)
              && forall k :: 0 <= k < |raw| ==> CredentialFrom(raw).value.expires <= raw[k].expires
    ensures raw[|raw| - 1].expires <= 0 ==> CredentialFrom(raw).value.expires == raw[|raw| - 1].expires
  {
    var es := Expiries(raw);
    if forall k :: 0 <= k < |raw| ==> raw[k].expires > 0 {
      PositiveExpiriesGiveMinimum(es);
      var k :| 0 <= k < |es| && es[k] == StoredExpiry(es);
      assert CredentialFrom(raw).value.expires == raw[k].expires;
    }
    if raw[|raw| - 1].expires <= 0 {
      TrailingNonPositiveWins(es);
    }
  }

  /** The fold is not "the smallest positive expiry": a non-positive expiry
      in the middle discards the positives before it. */
  lemma NonPositiveResetsTheFold()
    ensures StoredExpiry([100, -1, 200]) == 200
    ensures StoredExpiry([100, -1]) == -1
  {
  }

  // ---------------------------------------------------------------------
  // The Cookie header value
  // ---------------------------------------------------------------------

  function Render(c: CookiePair): (r: string)
    ensures |r| == |c.name| + |c.value| + 2
    ensures r[..|c.name|] == c.name && r[|c.name|] == '=' && r[|r| - 1] == ';'
    ensures r[|c.name| + 1..|r| - 1] == c.value
  {
    c.name + "=" + c.value + ";"
  }

  /** `cookies.map(cookie => `${cookie.name}=${cookie.value};`)`. */
  function Renders(cs: seq<CookiePair>): (r: seq<string>)
    ensures |r| == |cs|
    ensures forall i :: 0 <= i < |cs| ==> r[i] == Render(cs[i])
  {
    if cs == [] then [] else [Render(cs[0])] + Renders(cs[1..])
  }

  /** The `map` above followed by `.join(' ')`. */
  function Header(cs: seq<CookiePair>): (r: string)
    ensures cs == [] ==> r == []
    ensures |cs| == 1 ==> r == Render(cs[0])
  {
    Join(Renders(cs), " ")
  }

  lemma HeaderUnfold(cs: seq<CookiePair>)
    requires cs != []
    ensures Header(cs) == Render(cs[0]) + (if |cs| == 1 then "" else " " + Header(cs[1..]))
  {
  }

  lemma HeaderCons(cs: seq<CookiePair>)
    requires |cs| > 1
    ensures Header(cs) == Render(cs[0]) + (" " + Header(cs[1..]))
  {
    HeaderUnfold(cs);
  }

  /** Example: two cookies in list order, separated by one space. */
  lemma HeaderExample()
    ensures Header([CookiePair("a", "1"), CookiePair("b", "2")]) == "a=1; b=2;"
  {
    var cs := [CookiePair("a", "1"), CookiePair("b", "2")];
    HeaderUnfold(cs);
    HeaderUnfold(cs[1..]);
  }

  /** Cookies whose names hold no `=` and whose values hold no `;`, as the
      cookie grammar requires. */
  predicate WellFormed(cs: seq<CookiePair>) {
    forall i :: 0 <= i < |cs| ==> '=' !in cs[i].name && ';' !in cs[i].value
  }

  /** Splits `name=value;` off the front of a header value, returning the
      pair and what follows the `;`. */
  function SplitFirst(h: string): (r: Option<(CookiePair, string)>)
    ensures r.Some? ==> |r.value.1| < |h|
  {
    match IndexOf(h, '=')
    case None => None
    case Some(i) =>
      var rest := h[i + 1..];
      match IndexOf(rest, ';')
      case None => None
      case Some(j) => Some((CookiePair(h[..i], rest[..j]), rest[j + 1..]))
  }

  /** Reads a non-empty header value back into its cookies. */
  function ParseCookies(h: string): Option<seq<CookiePair>>
    decreases |h|
  {
    match SplitFirst(h)
    case None => None
    case Some((pair, after)) =>
      if after == [] then Some([pair])
      else if after[0] != ' ' then None
      else
        match ParseCookies(after[1..])
        case None => None
        case Some(tail) => Some([pair] + tail)
  }

  function ParseHeader(h: string): Option<seq<CookiePair>> {
    if h == [] then Some([]) else ParseCookies(h)
  }

  /** A rendered cookie is split off intact. */
  lemma SplitRendered(c: CookiePair, tail: string)
    requires '=' !in c.name && ';' !in c.value
    ensures SplitFirst(Render(c) + tail) == Some((c, tail))
  {
    var rest := c.value + [';'] + tail;
    assert Render(c) + tail == c.name + ['='] + rest;
    IndexOfAfter(c.name, '=', rest);
    IndexOfAfter(c.value, ';', tail);
  }

  lemma ParseSingle(c: CookiePair)
    requires '=' !in c.name && ';' !in c.value
    ensures ParseCookies(Render(c)) == Some([c])
  {
    SplitRendered(c, []);
    assert Render(c) + [] == Render(c);
  }

  lemma ParseCons(c: CookiePair, rest: string, tail: seq<CookiePair>)
    requires '=' !in c.name && ';' !in c.value
    requires ParseCookies(rest) == Some(tail)
    ensures ParseCookies(Render(c) + (" " + rest)) == Some([c] + tail)
  {
    SplitRendered(c, " " + rest);
    assert (" " + rest)[1..] == rest;
  }

  lemma WellFormedTail(cs: seq<CookiePair>)
    requires cs != [] && WellFormed(cs)
    ensures WellFormed(cs[1..]) && '=' !in cs[0].name && ';' !in cs[0].value
  {
    forall i | 0 <= i < |cs[1..]| ensures '=' !in cs[1..][i].name && ';' !in cs[1..][i].value {
      assert cs[1..][i] == cs[i + 1];
    }
  }

  lemma RoundTripSingle(cs: seq<CookiePair>)
    requires |cs| == 1 && WellFormed(cs)
    ensures ParseCookies(Header(cs)) == Some(cs)
  {
    HeaderUnfold(cs);
    ParseSingle(cs[0]);
    assert cs == [cs[0]];
  }

  lemma RoundTripCons(cs: seq<CookiePair>)
    requires |cs| > 1 && WellFormed(cs)
    requires ParseCookies(Header(cs[1..])) == Some(cs[1..])
    ensures ParseCookies(Header(cs)) == Some(cs)
  {
    var rest := Header(cs[1..]);
    HeaderCons(cs);
    ParseCons(cs[0], rest, cs[1..]);
    assert cs == [cs[0]] + cs[1..];
  }

  lemma {:induction false} ParseCookiesRoundTrip(cs: seq<CookiePair>)
    requires cs != [] && WellFormed(cs)
    ensures ParseCookies(Header(cs)) == Some(cs)
    decreases |cs|
  {
    if |cs| == 1 {
      RoundTripSingle(cs);
    } else {
      WellFormedTail(cs);
      ParseCookiesRoundTrip(cs[1..]);
      RoundTripCons(cs);
    }
  }

  /** The header value determines the cookie list: parsing it gives back
      the names and values in order. */
  lemma HeaderRoundTrip(cs: seq<CookiePair>)
    requires WellFormed(cs)
    ensures ParseHeader(Header(cs)) == Some(cs)
  {
    if cs != [] {
      HeaderUnfold(cs);
      ParseCookiesRoundTrip(cs);
    }
  }

  // ---------------------------------------------------------------------
  // Request decoration
  // ---------------------------------------------------------------------

  /** An outgoing request descriptor; `authenticate` rewrites its headers
      in place. */
  class Request {
    /** The request's `method` field; `method` is a keyword in Dafny. */
    var verb: Option<string>
    var headers: Option<map<string, string>>

    constructor(verb: Option<string>, headers: Option<map<string, string>>)
      ensures this.verb == verb && this.headers == headers
    {
      this.verb := verb;
      this.headers := headers;
    }
  }

  /** The headers after default decoration: a missing map becomes `{}`; an
      empty or absent `Cookie` is set to the credential's header value, a
      non-empty one gets `;` and the header value appended; nothing else
      changes. */
  function DecorateHeaders(headers: Option<map<string, string>>, value: string): (r: map<string, string>)
    ensures r.Keys == headers.GetOr(map[]).Keys + {"Cookie"}
    ensures forall k :: k in headers.GetOr(map[]) && k != "Cookie" ==> r[k] == headers.GetOr(map[])[k]
    ensures var base := headers.GetOr(map[]);
            if "Cookie" in base && base["Cookie"] != "" then r["Cookie"] == base["Cookie"] + ";" + value
            else r["Cookie"] == value
  {
    var base := if headers.None? then map[] else headers.value;
    if "Cookie" in base && base["Cookie"] != "" then base["Cookie" := base["Cookie"] + ";" + value]
    else base["Cookie" := value]
  }

  // ---------------------------------------------------------------------
  // Login driver outcomes and the authenticate state machine
  // ---------------------------------------------------------------------

  /** How the browser part of `login` ends: on the account summary page
      (with the context's cookies), elsewhere (the site asks for a code, and
      the SMS option has been chosen), or with a thrown error. */
  datatype PrimaryOutcome =
    | AccountSummaryReached(cookies: seq<RawCookie>)
    | ChallengeIssued
    | PrimaryThrew(message: string)

  /** How the browser part of `smsLogin` ends: the account list appears
      within the 10 second wait (with the context's cookies), it does not,
      or an error is thrown. */
  datatype SmsOutcome =
    | AccountListFound(cookies: seq<RawCookie>)
    | AccountListTimeout
    | SmsThrew(message: string)

  /** Everything the outside world decides during one `authenticate` call. */
  datatype Driver = Driver(primary: PrimaryOutcome, promptTime: string, code: string, sms: SmsOutcome)

  /** The externally visible steps of a login, in order. */
  datatype Action = PrimaryLogin | CodePrompt(prompt: string) | SmsCodeLogin(code: string, rememberDevice: bool)

  const SmsPrompt: string := "SMS Code: "

  /** The prompt shown for the SMS code: `formatMessage('info', 'SMS Code: ')`. */
  function Prompt(promptTime: string): string {
    Logging.FormatMessage(promptTime, "info", SmsPrompt)
  }

  /** The credential field and the returned value after one login step. */
  datatype Step = Step(cookies: Option<Credential>, result: Result<bool, SessionError>)

  /** `login()`: the credential is cleared first; reaching the account
      summary stores a new one and returns true; a code challenge returns
      false; a thrown error leaves the credential cleared and is rethrown
      with its logs block removed. */
  function PrimaryStep(primary: PrimaryOutcome): (s: Step)
    ensures s.cookies.Some? <==> s.result == Success(true)
    ensures s.result == Success(false) <==> primary.ChallengeIssued?
    ensures primary.PrimaryThrew? ==> s.result == Failure(DriverFailed(Logging.StripLogBlocks(primary.message)))
    ensures primary.AccountSummaryReached? && primary.cookies != [] ==>
              s == Step(Some(CredentialFrom(primary.cookies).value), Success(true))
    ensures primary.AccountSummaryReached? && primary.cookies == [] ==> s == Step(None, Failure(EmptyCookieList))
  {
    match primary
    case PrimaryThrew(m) => Step(None, Failure(DriverFailed(Logging.StripLogBlocks(m))))
    case ChallengeIssued => Step(None, Success(false))
    case AccountSummaryReached(raw) =>
      match CredentialFrom(raw)
      case Success(c) => Step(Some(c), Success(true))
      case Failure(e) => Step(None, Failure(e))
  }

  /** `smsLogin(code, rememberDevice)`: only a verified login stores a
      credential; a timeout returns false and a thrown error is rethrown,
      both leaving the credential as it was. */
  function SmsStep(held: Option<Credential>, sms: SmsOutcome): (s: Step)
    ensures s.result == Success(true) ==> s.cookies.Some?
    ensures s.result != Success(true) ==> s.cookies == held
    ensures s.result == Success(false) <==> sms.AccountListTimeout?
    ensures sms.SmsThrew? ==> s.result == Failure(DriverFailed(Logging.StripLogBlocks(sms.message)))
    ensures sms.AccountListFound? && sms.cookies != [] ==>
              s == Step(Some(CredentialFrom(sms.cookies).value), Success(true))
    ensures sms.AccountListFound? && sms.cookies == [] ==> s == Step(held, Failure(EmptyCookieList))
  {
    match sms
    case SmsThrew(m) => Step(held, Failure(DriverFailed(Logging.StripLogBlocks(m))))
    case AccountListTimeout => Step(held, Success(false))
    case AccountListFound(raw) =>
      match CredentialFrom(raw)
      case Success(c) => Step(Some(c), Success(true))
      case Failure(e) => Step(held, Failure(e))
  }

  /** What a login leaves behind: the credential, the steps taken, and the
      error it ended with, if any. */
  datatype LoginRun = LoginRun(cookies: Option<Credential>, actions: seq<Action>, failure: Option<SessionError>)

  /** `login()`, and when it returns false one code prompt and one
      `smsLogin` call whose boolean result is ignored. */
  function LoginSequence(d: Driver, rememberDevice: bool): LoginRun {
    var first := PrimaryStep(d.primary);
    if first.result != Success(false) then
      LoginRun(first.cookies, [PrimaryLogin], if first.result.Failure? then Some(first.result.error) else None)
    else
      var second := SmsStep(first.cookies, d.sms);
      LoginRun(second.cookies, [PrimaryLogin, CodePrompt(Prompt(d.promptTime)), SmsCodeLogin(d.code, rememberDevice)],
               if second.result.Failure? then Some(second.result.error) else None)
  }

  /** The options of one `authenticate` call; a falsy options object is
      `None` at the call. `apply` is `Undefined` when not given. */
  datatype AuthOptions = AuthOptions(loginIfRequired: JsValue, rememberDevice: JsValue, request: Option<Request>, apply: JsValue)

  /** `loginIfRequired` defaults to true; only an explicit `false` turns
      the login off. */
  predicate LoginEnabled(options: Option<AuthOptions>)
    ensures options.None? ==> LoginEnabled(options)
    ensures !LoginEnabled(options) <==> options.Some? && options.value.loginIfRequired == Bool(false)
  {
    options.None? || options.value.loginIfRequired != Bool(false)
  }

  /** `rememberDevice` defaults to true; only an explicit `false` turns it
      off. */
  predicate RememberDevice(options: Option<AuthOptions>)
    ensures options.None? ==> RememberDevice(options)
    ensures !RememberDevice(options) <==> options.Some? && options.value.rememberDevice == Bool(false)
  {
    options.None? || options.value.rememberDevice != Bool(false)
  }

  /** No credential, or `now` at or past its expiry. */
  predicate LoginRequired(cookies: Option<Credential>, now: int)
    ensures !LoginRequired(cookies, now) <==> exists c :: cookies == Some(c) && now < c.expires
  {
    cookies.None? || now >= cookies.value.expires
  }

  /** The re-check after the login decision. */
  function CheckCredential(cookies: Option<Credential>, now: int): (r: Result<Credential, SessionError>)
    ensures r.Success? <==> !LoginRequired(cookies, now)
    ensures r.Success? ==> Some(r.value) == cookies
    ensures cookies.None? ==> r == Failure(NotLoggedIn)
    ensures cookies.Some? && now >= cookies.value.expires ==> r == Failure(SessionExpired(cookies.value.expires, now))
  {
    match cookies
    case None => Failure(NotLoggedIn)
    case Some(c) => if now >= c.expires then Failure(SessionExpired(c.expires, now)) else Success(c)
  }

  /** How the request is finished once a live credential is held: the
      default injects the header value; a given `apply` is called instead. */
  datatype Decoration = InjectCookie(header: string) | CallApply(fn: JsValue)

  function Decorate(options: Option<AuthOptions>, c: Credential): (r: Result<Decoration, SessionError>)
    ensures r.Success? && r.value.InjectCookie? ==>
              r.value.header == c.HeaderValue() && options.Some? && options.value.request.Some?
              && options.value.apply == Undefined
    ensures r.Success? && r.value.CallApply? ==> r.value.fn.Func? && options.Some? && r.value.fn == options.value.apply
    ensures r == Failure(MissingRequest) <==>
              options.None? || (options.value.apply == Undefined && options.value.request.None?)
    ensures r == Failure(ApplyNotCallable) <==>
              options.Some? && options.value.apply != Undefined && !options.value.apply.Func?
    ensures r.Failure? ==> r == Failure(MissingRequest) || r == Failure(ApplyNotCallable)
  {
    var apply := if options.None? then Undefined else options.value.apply;
    if apply == Undefined then
      if options.None? || options.value.request.None? then Failure(MissingRequest)
      else Success(InjectCookie(c.HeaderValue()))
    else if apply.Func? then Success(CallApply(apply))
    else Failure(ApplyNotCallable)
  }

  /** The whole of one `authenticate` call, on values. */
  datatype AuthRun = AuthRun(cookies: Option<Credential>, actions: seq<Action>, result: Result<Decoration, SessionError>)

  function AuthenticateSpec(cookies: Option<Credential>, options: Option<AuthOptions>, now: int, d: Driver): AuthRun {
    if LoginEnabled(options) && LoginRequired(cookies, now) then
      var login := LoginSequence(d, RememberDevice(options));
      if login.failure.Some? then AuthRun(login.cookies, login.actions, Failure(login.failure.value))
      else Finish(login.cookies, login.actions, options, now)
    else Finish(cookies, [], options, now)
  }

  function Finish(held: Option<Credential>, actions: seq<Action>, options: Option<AuthOptions>, now: int): AuthRun {
    match CheckCredential(held, now)
    case Failure(e) => AuthRun(held, actions, Failure(e))
    case Success(c) => AuthRun(held, actions, Decorate(options, c))
  }

  // ---------------------------------------------------------------------
  // Properties of authenticate
  // ---------------------------------------------------------------------

  /** With login enabled, a login is attempted exactly when the credential
      is missing or expired, and it starts with the primary login. */
  lemma LoginAttemptedIffRequired(cookies: Option<Credential>, options: Option<AuthOptions>, now: int, d: Driver)
    requires LoginEnabled(options)
    ensures var run := AuthenticateSpec(cookies, options, now, d);
            (run.actions != [] <==> LoginRequired(cookies, now))
            && (run.actions != [] ==> run.actions[0] == PrimaryLogin)
  {
  }

  /** `loginIfRequired: false`: nothing is attempted, the credential is
      kept, and a missing or expired one is reported. */
  lemma NoLoginWhenDisabled(cookies: Option<Credential>, options: Option<AuthOptions>, now: int, d: Driver)
    requires !LoginEnabled(options)
    ensures var run := AuthenticateSpec(cookies, options, now, d);
            run.actions == [] && run.cookies == cookies
            && (cookies.None? ==> run.result == Failure(NotLoggedIn))
            && (cookies.Some? && now >= cookies.value.expires ==>
                  run.result == Failure(SessionExpired(cookies.value.expires, now)))
  {
  }

  /** A live credential is used as it is. */
  lemma LiveCredentialSkipsLogin(c: Credential, options: Option<AuthOptions>, now: int, d: Driver)
    requires now < c.expires
    ensures var run := AuthenticateSpec(Some(c), options, now, d);
            run.actions == [] && run.cookies == Some(c) && run.result == Decorate(options, c)
  {
  }

  /** When the primary login stops at a code challenge, exactly one prompt
      and one `smsLogin` follow, and nothing more. */
  lemma ChallengeGetsOneCodeAttempt(cookies: Option<Credential>, options: Option<AuthOptions>, now: int, d: Driver)
    requires LoginEnabled(options) && LoginRequired(cookies, now) && d.primary.ChallengeIssued?
    ensures AuthenticateSpec(cookies, options, now, d).actions
            == [PrimaryLogin, CodePrompt(Prompt(d.promptTime)), SmsCodeLogin(d.code, RememberDevice(options))]
  {
  }

  /** A primary login that needs no code prompts for nothing. */
  lemma DirectLoginPromptsNothing(cookies: Option<Credential>, options: Option<AuthOptions>, now: int, d: Driver)
    requires LoginEnabled(options) && LoginRequired(cookies, now) && !d.primary.ChallengeIssued?
    ensures AuthenticateSpec(cookies, options, now, d).actions == [PrimaryLogin]
  {
  }

  /** A code that is not confirmed in time is not an error of its own: the
      cleared credential makes the call fail with "not logged in". */
  lemma UnconfirmedCodeIsNotLoggedIn(cookies: Option<Credential>, options: Option<AuthOptions>, now: int, d: Driver)
    requires LoginEnabled(options) && LoginRequired(cookies, now)
    requires d.primary.ChallengeIssued? && d.sms.AccountListTimeout?
    ensures var run := AuthenticateSpec(cookies, options, now, d);
            run.cookies == None && run.result == Failure(NotLoggedIn)
  {
  }

  /** A call that succeeds holds a credential that is live at `now`, and a
      default decoration carries that credential's header value. */
  lemma SuccessHoldsLiveCredential(cookies: Option<Credential>, options: Option<AuthOptions>, now: int, d: Driver)
    ensures var run := AuthenticateSpec(cookies, options, now, d);
            run.result.Success? ==>
              run.cookies.Some? && now < run.cookies.value.expires
              && (run.result.value.InjectCookie? ==> run.result.value.header == run.cookies.value.HeaderValue())
              && (run.result.value.CallApply? ==> options.Some? && run.result.value.fn == options.value.apply)
  {
  }

  /** A fresh session whose login needs an SMS code: the code is accepted,
      the credential expires with its earliest cookie, and the request gets
      both cookies. */
  lemma TwoFactorScenario(t: int, request: Request)
    ensures var d := Driver(ChallengeIssued, "2026-01-01T00:00:00.000Z", "123456",
                            AccountListFound([RawCookie("a", "1", t + 100), RawCookie("b", "2", t + 50)]));
            var options := Some(AuthOptions(Undefined, Undefined, Some(request), Undefined));
            var run := AuthenticateSpec(None, options, t, d);
            run.actions == [PrimaryLogin, CodePrompt(Prompt("2026-01-01T00:00:00.000Z")), SmsCodeLogin("123456", true)]
            && run.cookies.Some? && run.cookies.value.expires == t + 50
            && run.result == Success(InjectCookie("a=1; b=2;"))
  {
    var raw := [RawCookie("a", "1", t + 100), RawCookie("b", "2", t + 50)];
    assert Expiries(raw) == [t + 100, t + 50];
    assert Pairs(raw) == [CookiePair("a", "1"), CookiePair("b", "2")];
    assert Expiries(raw)[1..] == [t + 50];
    assert FoldExpiry(t + 100, [t + 50]) == FoldExpiry(t + 50, []);
    assert StoredExpiry(Expiries(raw)) == t + 50;
    var c := Credential(t + 50, Pairs(raw));
    assert CredentialFrom(raw) == Success(c);
    HeaderExample();
    assert c.HeaderValue() == "a=1; b=2;";
  }

  // ---------------------------------------------------------------------
  // The session object
  // ---------------------------------------------------------------------

  /** The value `authenticate` resolves with: the decorated request itself,
      or whatever `apply(request)` returns. */
  datatype Authenticated = Decorated(request: Request) | Applied(fn: JsValue, argument: Option<Request>)

  function RequestOf(options: Option<AuthOptions>): set<Request> {
    if options.Some? && options.value.request.Some? then {options.value.request.value} else {}
  }

  class Session {
    const config: Config
    /** `this.cookies`: undefined until a login stores a credential. */
    var cookies: Option<Credential>

    constructor(config: Config)
      ensures this.config == config && cookies.None?
    {
      this.config := config;
      cookies := None;
    }

    /** `new SchwabSession(options)`. */
    static method Create(options: Option<SessionOptions>) returns (r: Result<Session, SessionError>)
      ensures options.None? ==> r == Failure(MissingOptions)
      ensures options.Some? ==> r.Success? && fresh(r.value) && r.value.cookies.None?
                                && Configure(options) == Success(r.value.config)
    {
      var c := Configure(options);
      if c.Failure? {
        r := Failure(c.error);
      } else {
        var s := new Session(c.value);
        r := Success(s);
      }
    }

    /** The cookie part of `saveCookiesAndCloseBrowser`: store the
        credential, or leave the field alone when the reduce throws. */
    method SaveCookies(raw: seq<RawCookie>) returns (err: Option<SessionError>)
      modifies this
      ensures CredentialFrom(raw).Success? ==> cookies == Some(CredentialFrom(raw).value) && err.None?
      ensures CredentialFrom(raw).Failure? ==> cookies == old(cookies) && err == Some(CredentialFrom(raw).error)
    {
      var c := CredentialFrom(raw);
      if c.Success? {
        cookies := Some(c.value);
        err := None;
      } else {
        err := Some(c.error);
      }
    }

    /** `login()`. */
    method Login(primary: PrimaryOutcome) returns (r: Result<bool, SessionError>)
      modifies this
      ensures cookies == PrimaryStep(primary).cookies && r == PrimaryStep(primary).result
    {
      cookies := None;
      match primary
      case PrimaryThrew(m) =>
        r := Failure(DriverFailed(Logging.StripLogBlocks(m)));
      case ChallengeIssued =>
        r := Success(false);
      case AccountSummaryReached(raw) =>
        var err := SaveCookies(raw);
        r := if err.Some? then Failure(err.value) else Success(true);
    }

    /** `smsLogin(code, rememberDevice)`; the code and the checkbox only
        drive the browser, whose outcome is `sms`. */
    method SmsLogin(sms: SmsOutcome) returns (r: Result<bool, SessionError>)
      modifies this
      ensures cookies == SmsStep(old(cookies), sms).cookies && r == SmsStep(old(cookies), sms).result
    {
      match sms
      case SmsThrew(m) =>
        r := Failure(DriverFailed(Logging.StripLogBlocks(m)));
      case AccountListTimeout =>
        r := Success(false);
      case AccountListFound(raw) =>
        var err := SaveCookies(raw);
        r := if err.Some? then Failure(err.value) else Success(true);
    }

    /** The login part of `authenticate`: `login()`, and when it returns
        false the code prompt and one `smsLogin` call. */
    method LoginSteps(d: Driver, rememberDevice: bool) returns (failure: Option<SessionError>, actions: seq<Action>)
      modifies this
      ensures LoginRun(cookies, actions, failure) == LoginSequence(d, rememberDevice)
    {
      var loggedIn := Login(d.primary);
      actions := [PrimaryLogin];
      failure := if loggedIn.Failure? then Some(loggedIn.error) else None;
      if loggedIn == Success(false) {
        actions := actions + [CodePrompt(Prompt(d.promptTime)), SmsCodeLogin(d.code, rememberDevice)];
        var verified := SmsLogin(d.sms);
        failure := if verified.Failure? then Some(verified.error) else None;
      }
    }

    /** `authenticate(options)` at time `now`. `actions` lists the login
        steps taken, in order. */
    method Authenticate(options: Option<AuthOptions>, now: int, d: Driver)
      returns (r: Result<Authenticated, SessionError>, actions: seq<Action>)
      modifies this, RequestOf(options)
      ensures var run := AuthenticateSpec(old(cookies), options, now, d);
              cookies == run.cookies && actions == run.actions
      ensures var run := AuthenticateSpec(old(cookies), options, now, d);
              run.result.Failure? ==> r == Failure(run.result.error) && unchanged(RequestOf(options))
      ensures var run := AuthenticateSpec(old(cookies), options, now, d);
              run.result.Success? && run.result.value.CallApply? ==>
                options.Some? && r == Success(Applied(run.result.value.fn, options.value.request))
                && unchanged(RequestOf(options))
      ensures var run := AuthenticateSpec(old(cookies), options, now, d);
              run.result.Success? && run.result.value.InjectCookie? ==>
                options.Some? && options.value.request.Some?
                && var request := options.value.request.value;
                   r == Success(Decorated(request))
                   && request.headers == Some(DecorateHeaders(old(request.headers), run.result.value.header))
                   && request.verb == old(request.verb)
    {
      var loginIfRequired := options.None? || options.value.loginIfRequired != Bool(false);
      var rememberDevice := options.None? || options.value.rememberDevice != Bool(false);
      actions := [];

      if loginIfRequired && (cookies.None? || now >= cookies.value.expires) {
        var failure;
        failure, actions := LoginSteps(d, rememberDevice);
        if failure.Some? {
          r := Failure(failure.value);
          return;
        }
      }
      assert AuthenticateSpec(old(cookies), options, now, d) == Finish(cookies, actions, options, now);

      if cookies.None? {
        r := Failure(NotLoggedIn);
        return;
      } else if now >= cookies.value.expires {
        r := Failure(SessionExpired(cookies.value.expires, now));
        return;
      }

      var apply := if options.None? then Undefined else options.value.apply;
      if apply == Undefined {
        if options.None? || options.value.request.None? {
          r := Failure(MissingRequest);
          return;
        }
        var request := options.value.request.value;
        if request.headers.None? {
          request.headers := Some(map[]);
        }
        var headers := request.headers.value;
        var value := cookies.value.HeaderValue();
        var cookie := if "Cookie" in headers && headers["Cookie"] != "" then headers["Cookie"] + ";" + value else value;
        request.headers := Some(headers["Cookie" := cookie]);
        r := Success(Decorated(request));
      } else if apply.Func? {
        r := Success(Applied(apply, options.value.request));
      } else {
        r := Failure(ApplyNotCallable);
      }
    }
  }
}

=== FILE: text.dfy ===
/** The JavaScript string operations the source relies on, written over
    `string` (a `seq<char>`): `indexOf` for one character, `replace` with a
    one-character string pattern, `Array.prototype.join`, and the decimal
    rendering of integers that template literals perform. */
module Text {
  import opened Wrappers

  /** Index of the first occurrence of `c` in `s`, as `s.indexOf(c)`. */
  function IndexOf(s: string, c: char): (r: Option<nat>)
    ensures r.None? <==> c !in s
    ensures r.Some? ==> r.value < |s| && s[r.value] == c && c !in s[..r.value]
  {
    if s == [] then None
    else if s[0] == c then Some(0)
    else
      match IndexOf(s[1..], c)
      case None => None
      case Some(i) =>
        assert s[..i + 1] == [s[0]] + s[1..][..i];
        Some(i + 1)
  }

  /** A character that does not occur in `a` is first found right after `a`. */
  lemma IndexOfAfter(a: string, c: char, b: string)
    requires c !in a
    ensures IndexOf(a + [c] + b, c) == Some(|a|)
    ensures (a + [c] + b)[..|a|] == a && (a + [c] + b)[|a| + 1..] == b
  {
    var s := a + [c] + b;
    assert s[|a|] == c;
    assert s[..|a|] == a;
  }

  /** `s.replace(from, to)` with one-character string arguments: only the
      first occurrence is replaced, because the pattern is a string and not
      a global regular expression. */
  function ReplaceFirst(s: string, from: char, to: char): (r: string)
    ensures |r| == |s|
    ensures IndexOf(s, from).None? ==> r == s
    ensures IndexOf(s, from).Some? ==> r == s[IndexOf(s, from).value := to]
  {
    if s == [] then []
    else if s[0] == from then [to] + s[1..]
    else [s[0]] + ReplaceFirst(s[1..], from, to)
  }

  /** Replacing splits the string at the first occurrence: what precedes it
      and everything after it, further occurrences included, are kept. */
  lemma ReplaceFirstAfter(a: string, from: char, to: char, b: string)
    requires from !in a
    ensures ReplaceFirst(a + [from] + b, from, to) == a + [to] + b
  {
    IndexOfAfter(a, from, b);
    var s := a + [from] + b;
    assert s[|a| := to] == a + [to] + b;
  }

  /** `parts.join(sep)`. */
  function Join(parts: seq<string>, sep: string): (r: string)
    ensures parts == [] ==> r == []
    ensures |parts| == 1 ==> r == parts[0]
  {
    if parts == [] then []
    else if |parts| == 1 then parts[0]
    else parts[0] + sep + Join(parts[1..], sep)
  }

  function DigitChar(d: nat): (c: char)
    requires d < 10
    ensures '0' <= c <= '9'
  {
    "0123456789"[d]
  }

  function DigitValue(c: char): nat
    requires '0' <= c <= '9'
  {
    (c as int - '0' as int) as nat
  }

  /** Decimal digits of `n`, most significant first, with no leading zero. */
  function NatToString(n: nat): (r: string)
    ensures |r| >= 1 && forall k :: 0 <= k < |r| ==> '0' <= r[k] <= '9'
    ensures |r| > 1 ==> r[0] != '0'
    decreases n
  {
    if n < 10 then [DigitChar(n)] else NatToString(n / 10) + [DigitChar(n % 10)]
  }

  /** How a template literal renders an integer-valued JavaScript number. */
  function IntToString(i: int): (r: string)
    ensures |r| >= 1
    ensures (r[0] == '-') <==> i < 0
    ensures IsIntString(r)
  {
    if i < 0 then "-" + NatToString(-i) else NatToString(i)
  }

  /** The value a string of decimal digits denotes. */
  function DigitsValue(s: string): nat
    requires forall k :: 0 <= k < |s| ==> '0' <= s[k] <= '9'
  {
    if s == [] then 0 else DigitsValue(s[..|s| - 1]) * 10 + DigitValue(s[|s| - 1])
  }

  /** An optional minus sign followed by at least one decimal digit. */
  predicate IsIntString(s: string) {
    |s| >= 1 && (s[0] == '-' || '0' <= s[0] <= '9')
    && (s[0] == '-' ==> |s| >= 2)
    && forall k :: 1 <= k < |s| ==> '0' <= s[k] <= '9'
  }

  /** The integer such a string denotes. */
  function SignedValue(s: string): int
    requires IsIntString(s)
  {
    if s[0] == '-' then 0 - DigitsValue(s[1..]) else DigitsValue(s)
  }

  /** Reading a rendered integer back, sign included, gives the integer. */
  lemma IntToStringRoundTrip(i: int)
    ensures SignedValue(IntToString(i)) == i
  {
    var r := IntToString(i);
    if i < 0 {
      var n: nat := -i;
      NatToStringRoundTrip(n);
      assert r == "-" + NatToString(n);
      assert r[1..] == NatToString(n);
      assert SignedValue(r) == 0 - DigitsValue(r[1..]);
    } else {
      NatToStringRoundTrip(i);
      assert r == NatToString(i);
      assert r[0] != '-';
    }
  }

  /** Different integers render differently. */
  lemma IntToStringInjective(i: int, j: int)
    ensures IntToString(i) == IntToString(j) ==> i == j
  {
    IntToStringRoundTrip(i);
    IntToStringRoundTrip(j);
  }

  /** Reading the rendered digits back gives the number. */
  lemma {:induction false} NatToStringRoundTrip(n: nat)
    ensures DigitsValue(NatToString(n)) == n
    decreases n
  {
    var r := NatToString(n);
    if n < 10 {
      assert r[..|r| - 1] == [];
    } else {
      NatToStringRoundTrip(n / 10);
      assert r[..|r| - 1] == NatToString(n / 10);
    }
  }
}

=== FILE: wrappers.dfy ===
/** Wrappers used across the model: an optional value,
    a value-or-error result, and a pass-or-fail outcome. */
module Wrappers {

  datatype Option<+T> = None | Some(value: T) {
    function GetOr(default: T): (r: T)
      ensures Some? ==> r == value
      ensures None? ==> r == default
    {
      match this
      case Some(v) => v
      case None => default
    }
  }

  datatype Result<+R, +E> = Success(value: R) | Failure(error: E)

  datatype Outcome<+E> = Pass | Fail(error: E)
}
